=== FILE: README.md ===
# wb-orders: cache-coherent order ingestion and lookup, in Dafny

This project models the core of the `wb-orders` service. It also models the
bit exercise `Level1/L1.8/BitInNumber.go` from the same repository.

The service takes order documents off a message stream and validates them.
It stores each order in four relational tables (`orders`, `delivery`,
`payment` and `items`) inside one transaction, and keeps the order in a
bounded LRU cache. An HTTP handler answers `GET /order/{id}` from the cache.
On a miss it reads the order from the store and caches it. At start-up a
warm-up routine fills the cache with the most recently created orders.

Every operation is a pure function, or a method with loops, over immutable
values:

- The cache (`Lru`) is a recency list of keys plus a map from key to order.
  Its hit and miss counters are 64-bit and wrap around.
- The store (`Storage`) is three maps keyed by `order_uid` plus a list of
  item rows. Database failures are not computed. A *fault oracle* parameter
  names the statement at which the database reports an error. A transaction
  that fails leaves the prior state.
- The consumer loop (`Consumer`) handles one already-read message per step.
  Its input says whether the read failed, whether the context was cancelled,
  and whether the JSON decoded.
- The handler and the warm-up (`Api`) take the request path and the rows of
  the id query as parameters.

Modules and files:

| file | module | models |
|---|---|---|
| wrappers.dfy | Wrappers | `Option` and `Result` |
| models.dfy | Models | the order aggregate and Go's zero values |
| lru.dfy | Lru | `wb-orders/internal/cache/lru.go` |
| lru_trace.dfy | LruTrace | what "least recently used" means, over the history of touched keys |
| item_order.dfy | ItemOrder | `ORDER BY chrt_id` of the items query |
| storage.dfy | Storage | `ValidateOrder`, `UpsertOrder` and `GetOrderByID` of `repo.go` |
| coherence.dfy | Coherence | the relation between cached orders and stored rows |
| consumer.dfy | Consumer | the body of `Consumer.Run` in `consumer.go` |
| api.dfy | Api | the `/order/` handler, `warmUpCache` and the start-up wiring in `main.go` |
| bits.dfy | BitInNumber | setting or clearing bit `i` of an `int64` |

The central invariant is `Coherence.SystemInvariant`: the store is
consistent, the cache is valid, and every cached order mirrors the stored
rows. Ingestion keeps it (`Consumer.RunKeepsInvariant`), the handler keeps it
(`Api.HandleKeepsInvariant`), and warm-up establishes it
(`Api.StartUpCache`). The warm-up's effect on recency is `LruTrace.Run`
over its `Set` calls (`Api.WarmUpCache`).

## Model

| member | source | states |
|---|---|---|
| Lru.NewLru | wb-orders/internal/cache/lru.go:31-40 | The new cache is empty and valid, with both counters at 0. A capacity of 0 or less becomes 1; any other capacity is kept. |
| Lru.Get | wb-orders/internal/cache/lru.go:42-56 | A hit happens exactly when the key is cached. A hit returns the cached value, moves the key to the front and adds 1 to `hits`, modulo 2^64. A miss returns the zero order, leaves the list alone and adds 1 to `misses`. Neither changes the stored entries. |
| Lru.Set | wb-orders/internal/cache/lru.go:58-84 | Afterwards the key is at the front and holds `v`, and the cache is still valid. Counters and capacity are unchanged, and no other key changes its value. Nothing is dropped unless a new key arrives at a full cache. In that case only the back key is dropped. |
| Lru.Overwrite | wb-orders/internal/cache/lru.go:62-68 | For an existing key, the value is replaced and the key moves to the front. The rest of the list keeps its order, and nothing is evicted. |
| Lru.Insert | wb-orders/internal/cache/lru.go:70-83 | A new key is pushed on the front. When the cache was full, the back key leaves both the list and the index. |
| Lru.Evict | wb-orders/internal/cache/lru.go:75-83 | A list one over capacity loses exactly its back element, together with that element's index entry. |
| Lru.SetOrder | wb-orders/internal/cache/lru.go:58-84 | Gives the exact index and recency list after `Set`, for each of its three cases: existing key, new key with room, new key in a full cache. |
| Lru.SetIdempotent | wb-orders/internal/cache/lru.go:58-68 | Setting the same key to the same value twice equals setting it once. |
| Lru.SetWithRoom | wb-orders/internal/cache/lru.go:70-76 | Below capacity, `Set` just writes the entry; nothing is evicted. |
| Lru.Len | wb-orders/internal/cache/lru.go:86-90 | The list length equals the number of cached entries and never exceeds the capacity. |
| LruTrace.StepIsLru | wb-orders/internal/cache/lru.go:42-84 | One `Get` or `Set` keeps the list ordered by each key's last touch. A touched key that is not cached was touched before every cached key. |
| LruTrace.RunIsLru | wb-orders/internal/cache/lru.go:42-84 | After any sequence of calls, the list is ordered by last touch, and every evicted key was touched before every cached key. |
| LruTrace.FreshCacheIsLru | wb-orders/internal/cache/lru.go:31-84 | Starting from `NewLru`, every run leaves the cache in least-recently-used order. |
| LruTrace.RunAppend | wb-orders/internal/cache/lru.go:42-84 | A run followed by one more call leaves the cache that the call leaves when applied to the run's result. |
| LruTrace.SetEvictsLeastRecent | wb-orders/internal/cache/lru.go:75-83 | A new key in a full cache evicts exactly one key: the cached key touched least recently. Every other entry stays, with its value. |
| LruTrace.RunCountsLookups | wb-orders/internal/cache/lru.go:92-96 | `hits + misses` grows by exactly the number of `Get` calls, as long as the total stays below 2^64. |
| LruTrace.EvictionScenario | wb-orders/internal/cache/lru.go:31-84 | With capacity 2: set a, set b, get a (a hit), set c. Afterwards a and c are cached, b is gone, and the stats are (1, 0). |
| ItemOrder.InsertByChrt | wb-orders/internal/storage/repo.go:56-62 | Inserting into a list sorted by `chrt_id` keeps it sorted. The result has the same items plus the new one. |
| ItemOrder.SortByChrt | wb-orders/internal/storage/repo.go:56-62 | The result is a permutation of the items (a multiset equality), sorted by `chrt_id`. |
| ItemOrder.SortSortedIsIdentity | wb-orders/internal/storage/repo.go:61 | Sorting an already sorted list leaves it unchanged. |
| Storage.ValidateOrder | wb-orders/internal/storage/repo.go:234-249 | Accepts exactly when uid and track number are non-empty and the creation time is not zero. Otherwise it reports the first failing check, in the source's order. |
| Storage.UpsertOrder | wb-orders/internal/storage/repo.go:91-231 | The call fails exactly when the faulting statement actually runs, and a failure leaves the store unchanged. An item-insert failure names that item's `chrt_id`. A success stores header, delivery, payment and exactly the new items under the uid. It leaves every other uid's rows alone and keeps the store consistent. |
| Storage.UpsertCommitted | wb-orders/internal/storage/repo.go:104-225 | The committed state holds the order, leaves the other uids' rows as they were, and keeps the store consistent. |
| Storage.UpsertIdempotent | wb-orders/internal/storage/repo.go:87-231 | A second identical upsert leaves the same state as the first. Item rows are not duplicated. |
| Storage.ReplaceItemsTwice | wb-orders/internal/storage/repo.go:201-225 | Deleting a uid's item rows and re-inserting the same items a second time changes nothing. |
| Storage.UpsertReplaces | wb-orders/internal/storage/repo.go:201-225 | A second upsert of the same uid leaves exactly the second order's rows, with none of the first order's items. |
| Storage.GetOrderByID | wb-orders/internal/storage/repo.go:24-85 | Not-found happens exactly when the header row is missing and the head query did not fail. A success means header, delivery and payment rows all exist. The result then carries the stored delivery, payment and items, the items sorted by `chrt_id`, and zero header fields. A consistent store with a header and no fault always reads successfully. A failing head query gives its error. A failing items query, row scan or iteration check gives that statement's error, as long as the statement runs. A fault at an items statement that does not run leaves the read successful. A header without delivery or payment rows fails the head-row scan, whatever items statement the fault names, since the items phase never starts. Every error is the faulting statement's or that head-row scan failure. |
| Storage.ReadItems | wb-orders/internal/storage/repo.go:55-82 | The items phase fails exactly when the faulting statement runs: the items query, the scan of an existing row, or the iteration check. The error names that statement. Otherwise it returns the rows it was given. |
| Storage.FaultOnlyFails | wb-orders/internal/storage/repo.go:24-85 | A fault can turn a read into an error, but never changes what a successful read returns. |
| Storage.ReadableReads | wb-orders/internal/storage/repo.go:24-85 | A successful read, under any fault, returns that uid's entry in the `Readable` view. A uid is in the view exactly when its fault-free read succeeds. |
| Storage.ReadBack | wb-orders/internal/storage/repo.go:28-85 | A read keeps uid, delivery and payment, sorts the items into a permutation of the stored ones, and leaves every other header field at its zero value. |
| Storage.ReadBackIdempotent | wb-orders/internal/storage/repo.go:28-62 | Reading back an order that was itself read back changes nothing. |
| Storage.UpsertThenRead | wb-orders/internal/storage/repo.go:24-231 | Reading back a just-upserted order gives `ReadBack` of that order. |
| Storage.ReadBackDropsHeader | wb-orders/internal/storage/repo.go:28-53 | The read-back of a valid order fails `ValidateOrder`, so the round trip is not the identity. |
| Coherence.SetKeepsCoherent | wb-orders/internal/cache/lru.go:58-84 | Storing a value that mirrors the store keeps the cache coherent. |
| Coherence.ReadMirrors | wb-orders/internal/storage/repo.go:24-85 | A successful read returns an order that mirrors the store. |
| Coherence.UpsertKeepsOthers | wb-orders/internal/storage/repo.go:91-231 | Any upsert keeps every cached order of another uid mirrored. A successful upsert makes the written order mirror the new store. |
| Consumer.Step | wb-orders/internal/kafka/consumer.go:44-80 | A failed read ends the loop: nil if the context was cancelled, the wrapped error otherwise. Bad JSON, an invalid order and a failed upsert are each skipped with the state unchanged; a valid order whose upsert fails continues the loop with that upsert's error logged and neither store nor cache touched. The order is stored and cached exactly when it decodes, validates and the upsert commits. A stored order is then in the store, and the cache becomes the old cache after `Set` of the decoded order under its uid (so its recency and any eviction follow the LRU), with the counters unchanged. |
| Consumer.Run | wb-orders/internal/kafka/consumer.go:43-81 | The loop keeps running exactly while every read succeeds. It returns at the first failed read, with nil exactly when that read was cancelled. |
| Consumer.ReprocessIdempotent | wb-orders/internal/kafka/consumer.go:67-75 | Redelivering a valid message that stored cleanly leaves store and cache as the first delivery did. |
| Consumer.StepKeepsInvariant | wb-orders/internal/kafka/consumer.go:54-75 | Each turn keeps the store consistent, the cache valid and the two coherent. |
| Consumer.RunKeepsInvariant | wb-orders/internal/kafka/consumer.go:43-81 | The whole loop keeps that invariant. |
| Consumer.RunStopsAtFailedRead | wb-orders/internal/kafka/consumer.go:44-52 | Messages after the first failed read have no effect, because `Run` has already returned. |
| Api.TrimPrefix | wb-orders/cmd/api/main.go:118 | With the prefix present, prefix plus result gives back the path. Without it, the path is unchanged. |
| Api.HandleOrder | wb-orders/cmd/api/main.go:117-145 | An empty id gives 400 with the cache untouched. A hit gives 200 with the cached order, counts a hit and keeps the entries. A miss counts a miss. A miss whose read fails gives 404 with the entries unchanged. A miss whose read succeeds gives 200 with the order read and caches it. For a non-empty id the cache afterwards is exactly what `Get` of the id leaves (a hit moves the key to the front), followed on a successful miss by `Set` of the order read. |
| Api.HandleTraced | wb-orders/cmd/api/main.go:117-145 | For a non-empty id, the cache after a request is the cache-call trace `[Get(id)]`, or `[Get(id), Set(id, order read)]` on a miss whose read succeeds, run from the cache before it; so the LRU trace results apply to the cache across requests. |
| Api.HitIgnoresStore | wb-orders/cmd/api/main.go:124-129 | A cache hit is answered the same whatever the store holds or however it would fail. |
| Api.HandleKeepsInvariant | wb-orders/cmd/api/main.go:136-144 | A request keeps the cache coherent with the store. |
| Api.LoadedMembers | wb-orders/cmd/api/main.go:193-200 | The ids set by the first n turns of the warm-up loop are exactly those ids among the first n whose read succeeded. |
| Api.LoadedAll | wb-orders/cmd/api/main.go:193-200 | When every read succeeds, every listed id is set. |
| Api.WarmUpOps | wb-orders/cmd/api/main.go:193-200 | The cache calls of the warm-up loop are `Set`s only, at most one per turn. Each sets a readable id to what a fault-free read of the store returns for it. |
| Api.TurnTraced | wb-orders/cmd/api/main.go:193-200 | The calls of one more turn leave the cache of the earlier turns with the order read set in it, or unchanged when the read failed. |
| Api.WarmUpCache | wb-orders/cmd/api/main.go:173-203 | If the id query fails, that error is returned and the cache is unchanged. Otherwise the result is nil, and the cache is exactly what the loop's sequence of `Set` calls leaves, in id order, read failures skipped (`LruTrace.Run`). So recency and eviction follow `LruTrace.RunIsLru`. Every loaded id that is still cached holds its stored order as read, and every other entry is as before. The counters are unchanged. When the cache has room for all ids, its keys become the old keys plus the loaded ids. |
| Api.WarmUpTurn | wb-orders/cmd/api/main.go:193-200 | One turn of the warm-up loop keeps its invariant. The current id is set in the cache, and joins the loaded ids, exactly when its read succeeded; otherwise the cache is unchanged. |
| Api.WarmUpKeeps | wb-orders/cmd/api/main.go:193-200 | After any number of turns, the cache the turns' `Set` calls leave keeps the counters. Every entry outside the loaded ids is as before, and every loaded id still cached holds what the store reads back. While there is room for every id, the keys are the old keys plus the loaded ids. |
| Api.WarmUpCoherent | wb-orders/cmd/api/main.go:193-200 | Warm-up of a coherent cache leaves it coherent. |
| Api.StartUpCache | wb-orders/cmd/api/main.go:70-76 | The result is a valid cache of capacity 1000, coherent with a consistent store. A failed id query leaves it empty. Otherwise it is what the warm-up's `Set` calls leave in a fresh cache. When the ids fit, its keys are exactly the ids whose read succeeded, under any read faults. When the query returns the most recent orders and no read fails, the cache holds min(stored orders, 100) of them. |
| Api.StartUpLen | wb-orders/cmd/api/main.go:70-76 | If the cache holds exactly the loaded ids, the ids are the most recent stored orders and no read fails, then `Len()` is the number of ids, which is min(stored orders, 100). |
| Api.AllLoad | wb-orders/cmd/api/main.go:193-200 | On a consistent store with no read fault, every stored id loads. |
| Api.StartUpWithTwoOrders | wb-orders/cmd/api/main.go:70-76 | With exactly two stored orders, `Len()` after warm-up is 2. |
| BitInNumber.ApplyBit | Level1/L1.8/BitInNumber.go:21-25 | After the operation, bit i equals `bit == 1`, and every other bit is the old one. |
| BitInNumber.SetBit | Level1/L1.8/BitInNumber.go:21-25 | A negative bit number panics, and only a negative one. A number of 64 or more leaves x unchanged. Otherwise bit i becomes 1 exactly when `bit` is 1, and all other 63 bits keep their values. |
| BitInNumber.ApplyOnTwice | Level1/L1.8/BitInNumber.go:22 | Setting the masked bits twice equals setting them once. |
| BitInNumber.ApplyOffTwice | Level1/L1.8/BitInNumber.go:24 | Clearing the masked bits twice equals clearing them once. |
| BitInNumber.SetBitIdempotent | Level1/L1.8/BitInNumber.go:21-25 | Running the operation again on its own result gives the same result. |
| BitInNumber.ApplyAlreadyThere | Level1/L1.8/BitInNumber.go:21-25 | If the bit already has the requested value, the word is unchanged. |
| BitInNumber.AlreadyThere | Level1/L1.8/BitInNumber.go:21-25 | The same for the whole program: a bit already at its requested value leaves x as it was. |

## Read-back and error behaviour

- **Round trip.** The head query of `GetOrderByID` (`repo.go:28-38`)
  selects only `order_uid`, delivery and payment. Every other header field
  of the result keeps its zero value. Items come back sorted by `chrt_id`,
  not in insertion order. `Storage.UpsertThenRead` states what a read
  after an upsert returns. `Storage.ReadBackDropsHeader` shows that this
  read-back of a valid order fails validation. So `Coherence.Mirrors`
  accepts two headers for a cached order: the stored one (the consumer
  caches the decoded order) and the zero one (the handler and the warm-up
  cache what a read returned). It compares delivery and payment, and the
  items as a multiset.
- **Handler errors.** The handler (`main.go:136-140`) answers 404 for every
  error from `GetOrderByID`, whether the order is missing or the query
  failed. `Api.HandleOrder` does the same.
- **Equal catalog ids.** `ORDER BY chrt_id` leaves the order of equal ids
  open. The model settles ties with a stable insertion sort
  (`ItemOrder.SortByChrt`). Its contract only promises a sorted permutation.

## Left out

- Mutex, concurrency and races: `lru.go` takes a lock in every method. Each
  operation is modelled as one atomic transition. Interleavings of the
  consumer, the handler and the warm-up are not modelled.
- The per-entry access time `atime` (`lru.go:19`): it is written on every
  access but never read.
- SQL text, the pgx driver, connections and `mustOpenDB`: the store is
  abstract maps. Database failures enter through the fault oracles
  `Option<TxStep>` and `Option<ReadStep>`.
- The `recover`/re-`panic` handler in `UpsertOrder`: panics are not
  modelled.
- The Kafka reader configuration, offset commits, JSON decoding and
  `Consumer.Close`: the read and decode outcome is an input of each step.
- HTTP routing, JSON response encoding, `/healthz` and `/debug/cache`, the
  server and graceful shutdown. The 3-second context timeout on a read is
  not modelled separately; a timeout is one of the read faults.
- Logging (`log.Printf`) and printing: they have no effect on the state.
- The id query `ORDER BY date_created DESC LIMIT n` in `warmUpCache`: its
  rows are a parameter. The `Len` clause of `Api.StartUpCache` assumes they
  satisfy `Api.RecentIds`, which says what that query returns. A failed scan or
  iteration of those rows is folded into the single `IdQueryFailed` error.
- The Go `fmt.Scan` and `fmt.Println` of `BitInNumber.go`, and the other
  Level1 programs (worker pools, goroutine stopping, timeouts, maps,
  embedding): they are not part of this model.
- BitInNumber.SetBit: an `int64` is modelled by its 64 two's-complement bits
  (`bv64`), and bit 63 is the sign. The contract is per bit and does not
  restate the result as a signed integer.
- Lru.Stats: it only reads the two counters and has no contract of its own.
  `LruTrace.RunCountsLookups` states what the counters mean.
- LruTrace.RunCountsLookups: proved only while the combined count stays below
  2^64. Past that point the counters wrap (`Lru.Inc`), and the sum no longer
  equals the number of lookups.

=== FILE: api.dfy ===
/**
 * The HTTP side of wb-orders/cmd/api/main.go that touches the core: the
 * cache-aside `/order/{id}` handler and the startup warm-up of the cache.
 *
 * HTTP routing, JSON encoding, logging and the 3-second request timeout are
 * outside the model; a response is its status code and, on success, the
 * order it would encode. The id query of the warm-up (`SELECT order_uid FROM
 * orders ORDER BY date_created DESC LIMIT n`) is an input: its rows or its
 * failure.
 */
module Api {
  import opened Wrappers
  import opened Models
  import opened Storage
  import opened Lru
  import opened Coherence
  import LruTrace

  const OrderRoute: string := "/order/"
  const StatusOK: int := 200
  const StatusBadRequest: int := 400
  const StatusNotFound: int := 404

  /** The capacity `main` gives the cache and the number of orders it warms it with. */
  const CacheCapacity: int := 1000
  const WarmUpLimit: nat := 100

  /** Go's `strings.TrimPrefix`. */
  function TrimPrefix(s: string, prefix: string): (r: string)
    ensures prefix <= s ==> prefix + r == s
    ensures !(prefix <= s) ==> r == s
  {
    if prefix <= s then s[|prefix|..] else s
  }

  /** A status code and, for 200, the order written as JSON. */
  datatype Response = Response(status: int, body: Option<Order>)

  /** The cache after the request and the response sent. */
  datatype Served = Served(cache: Cache, response: Response)

  /**
   * The `/order/` handler. An empty id is answered 400 without touching the
   * cache. A cache hit is answered from the cache. On a miss the store is
   * read: success caches the order read and answers it, and every store
   * error, not-found or not, is answered 404 with nothing cached.
   */
  function HandleOrder(path: string, cache: Cache, store: Store, fault: Option<ReadStep>): (r: Served)
    requires Valid(cache)
    ensures Valid(r.cache)
    ensures TrimPrefix(path, OrderRoute) == "" ==> r == Served(cache, Response(StatusBadRequest, None))
    ensures var id := TrimPrefix(path, OrderRoute);
            id != "" && id in cache.entries ==>
              && r.response == Response(StatusOK, Some(cache.entries[id]))
              && r.cache.entries == cache.entries
              && r.cache.hits as int == (cache.hits as int + 1) % U64Modulus
              && r.cache.misses == cache.misses
    ensures var id := TrimPrefix(path, OrderRoute);
            id != "" && id !in cache.entries ==>
              && r.cache.hits == cache.hits
              && r.cache.misses as int == (cache.misses as int + 1) % U64Modulus
    ensures var id := TrimPrefix(path, OrderRoute);
            id != "" && id !in cache.entries && GetOrderByID(store, id, fault).Err? ==>
              && r.response == Response(StatusNotFound, None)
              && r.cache.entries == cache.entries
    ensures var id := TrimPrefix(path, OrderRoute);
            id != "" && id !in cache.entries && GetOrderByID(store, id, fault).Ok? ==>
              var o := GetOrderByID(store, id, fault).value;
              && r.response == Response(StatusOK, Some(o))
              && id in r.cache.entries && r.cache.entries[id] == o
    ensures var id := TrimPrefix(path, OrderRoute);
            var read := GetOrderByID(store, id, fault);
            id != "" ==>
              r.cache == if id !in cache.entries && read.Ok? then Set(Get(cache, id).cache, id, read.value)
                         else Get(cache, id).cache
  {
    var id := TrimPrefix(path, OrderRoute);
    if id == "" then Served(cache, Response(StatusBadRequest, None))
    else
      var lookup := Get(cache, id);
      if lookup.found then Served(lookup.cache, Response(StatusOK, Some(lookup.value)))
      else
        match GetOrderByID(store, id, fault)
        case Err(_) => Served(lookup.cache, Response(StatusNotFound, None))
        case Ok(o) => Served(Set(lookup.cache, id, o), Response(StatusOK, Some(o)))
  }

  /**
   * The cache calls a request makes: a `Get`, then, on a miss whose read
   * succeeds, a `Set` of the order read. So `LruTrace.RunIsLru` applies to
   * the cache across requests.
   */
  lemma HandleTraced(path: string, cache: Cache, store: Store, fault: Option<ReadStep>)
    requires Valid(cache)
    ensures var id := TrimPrefix(path, OrderRoute);
            var read := GetOrderByID(store, id, fault);
            id != "" ==>
              HandleOrder(path, cache, store, fault).cache ==
                LruTrace.Run(cache, [LruTrace.GetOp(id)] +
                                    if id !in cache.entries && read.Ok? then [LruTrace.SetOp(id, read.value)] else [])
  {
    var id := TrimPrefix(path, OrderRoute);
    var read := GetOrderByID(store, id, fault);
    if id != "" {
      LruTrace.RunAppend(cache, [], LruTrace.GetOp(id));
      if id !in cache.entries && read.Ok? {
        LruTrace.RunAppend(cache, [LruTrace.GetOp(id)], LruTrace.SetOp(id, read.value));
        assert [] + [LruTrace.GetOp(id)] == [LruTrace.GetOp(id)];
      } else {
        assert [LruTrace.GetOp(id)] + [] == [] + [LruTrace.GetOp(id)];
      }
    }
  }

  /** A cache hit never consults the store: the answer is the same whatever the store holds. */
  lemma HitIgnoresStore(path: string, cache: Cache, s1: Store, f1: Option<ReadStep>, s2: Store, f2: Option<ReadStep>)
    requires Valid(cache) && TrimPrefix(path, OrderRoute) in cache.entries
    ensures HandleOrder(path, cache, s1, f1) == HandleOrder(path, cache, s2, f2)
  {
  }

  /** Serving a request keeps the service invariant (the handler never writes the store). */
  lemma HandleKeepsInvariant(path: string, cache: Cache, store: Store, fault: Option<ReadStep>)
    requires SystemInvariant(store, cache)
    ensures SystemInvariant(store, HandleOrder(path, cache, store, fault).cache)
  {
    var id := TrimPrefix(path, OrderRoute);
    if id != "" && id !in cache.entries && GetOrderByID(store, id, fault).Ok? {
      var miss := Get(cache, id).cache;
      ReadMirrors(store, id, fault);
      SetKeepsCoherent(store, miss, id, GetOrderByID(store, id, fault).value);
    }
  }

  // ---------------------------------------------------------------------------
  // Warm-up

  /** A failure of the id query, of a row scan, or of the row iteration. */
  datatype WarmUpError = IdQueryFailed

  /** The read fault for the `i`-th id; ids past the end of `faults` read without one. */
  function FaultAt(faults: seq<Option<ReadStep>>, i: int): Option<ReadStep>
  {
    if 0 <= i < |faults| then faults[i] else None
  }

  /** Which reads of the warm-up succeed, id by id. */
  function Outcomes(store: Store, ids: seq<string>, faults: seq<Option<ReadStep>>): (ok: seq<bool>)
    ensures |ok| == |ids|
    ensures forall i :: 0 <= i < |ids| ==> ok[i] == GetOrderByID(store, ids[i], FaultAt(faults, i)).Ok?
  {
    seq(|ids|, i requires 0 <= i < |ids| => GetOrderByID(store, ids[i], FaultAt(faults, i)).Ok?)
  }

  /** The ids among the first `n` whose read succeeds. */
  function Loaded(ids: seq<string>, ok: seq<bool>, n: int): (r: set<string>)
    requires |ok| == |ids| && 0 <= n <= |ids|
    ensures |r| <= n
    decreases n
  {
    if n == 0 then {}
    else Loaded(ids, ok, n - 1) + (if ok[n - 1] then {ids[n - 1]} else {})
  }

  /** An id is loaded exactly when one of its reads among the first `n` succeeded. */
  lemma {:induction false} LoadedMembers(ids: seq<string>, ok: seq<bool>, n: int, k: string)
    requires |ok| == |ids| && 0 <= n <= |ids|
    ensures k in Loaded(ids, ok, n) <==> exists i :: 0 <= i < n && ok[i] && ids[i] == k
    decreases n
  {
    if n > 0 {
      LoadedMembers(ids, ok, n - 1, k);
    }
  }

  /** When every read succeeds, all of them load. */
  lemma LoadedAll(ids: seq<string>, ok: seq<bool>)
    requires |ok| == |ids| && forall i :: 0 <= i < |ok| ==> ok[i]
    ensures Loaded(ids, ok, |ids|) == set x | x in ids
  {
    forall x | x in ids ensures x in Loaded(ids, ok, |ids|) {
      var i :| 0 <= i < |ids| && ids[i] == x;
      LoadedMembers(ids, ok, |ids|, x);
    }
    forall x | x in Loaded(ids, ok, |ids|) ensures x in ids {
      LoadedMembers(ids, ok, |ids|, x);
    }
  }

  /**
   * The cache calls the first `n` turns of the warm-up make, in order: a
   * `Set` of each id whose read succeeds, with the order read. Every value
   * set is what a fault-free read of the store returns for that id.
   */
  function WarmUpOps(store: Store, ids: seq<string>, faults: seq<Option<ReadStep>>, n: int): (ops: seq<LruTrace.Op>)
    requires 0 <= n <= |ids|
    ensures |ops| <= n
    ensures forall j :: 0 <= j < |ops| ==>
              ops[j].SetOp? && ops[j].key in Readable(store) && ops[j].value == Readable(store)[ops[j].key]
    decreases n
  {
    if n == 0 then []
    else
      var read := GetOrderByID(store, ids[n - 1], FaultAt(faults, n - 1));
      ReadableReads(store, ids[n - 1], FaultAt(faults, n - 1));
      WarmUpOps(store, ids, faults, n - 1) + TurnOps(ids[n - 1], read)
  }

  /** The cache call one turn makes: a `Set` of the order read, or none. */
  function TurnOps(id: string, read: Result<Order, ReadError>): seq<LruTrace.Op>
  {
    if read.Ok? then [LruTrace.SetOp(id, read.value)] else []
  }

  /** One more turn of the warm-up adds that turn's call to the calls made so far. */
  lemma WarmUpOpsExtend(store: Store, ids: seq<string>, faults: seq<Option<ReadStep>>, i: int)
    requires 0 <= i < |ids|
    ensures WarmUpOps(store, ids, faults, i + 1) ==
              WarmUpOps(store, ids, faults, i) + TurnOps(ids[i], GetOrderByID(store, ids[i], FaultAt(faults, i)))
  {
  }

  /** Making one turn's call after a run sets the order read in the cache the run left, or does nothing. */
  lemma RunTurn(c0: Cache, ops: seq<LruTrace.Op>, id: string, read: Result<Order, ReadError>)
    requires Valid(c0)
    ensures LruTrace.Run(c0, ops + TurnOps(id, read)) ==
              if read.Ok? then Set(LruTrace.Run(c0, ops), id, read.value) else LruTrace.Run(c0, ops)
  {
    if read.Ok? {
      LruTrace.RunAppend(c0, ops, LruTrace.SetOp(id, read.value));
    } else {
      assert ops + TurnOps(id, read) == ops;
    }
  }

  /** The cache after `i + 1` turns is the cache after `i` turns with the `i`-th read set in it, if it succeeded. */
  lemma TurnTraced(store: Store, c0: Cache, ids: seq<string>, faults: seq<Option<ReadStep>>, i: int)
    requires Valid(c0) && 0 <= i < |ids|
    ensures var read := GetOrderByID(store, ids[i], FaultAt(faults, i));
            var before := LruTrace.Run(c0, WarmUpOps(store, ids, faults, i));
            LruTrace.Run(c0, WarmUpOps(store, ids, faults, i + 1)) ==
              if read.Ok? then Set(before, ids[i], read.value) else before
  {
    WarmUpOpsExtend(store, ids, faults, i);
    RunTurn(c0, WarmUpOps(store, ids, faults, i), ids[i], GetOrderByID(store, ids[i], FaultAt(faults, i)));
  }

  /**
   * Rows the id query may return: distinct uids of stored orders, newest
   * creation time first, as many as the limit allows, and no order left out
   * that is newer than one returned.
   */
  ghost predicate RecentIds(store: Store, n: nat, ids: seq<string>)
  {
    && Distinct(ids)
    && (forall i :: 0 <= i < |ids| ==> ids[i] in store.orders)
    && |ids| == (if n < |store.orders| then n else |store.orders|)
    && (forall i, j :: 0 <= i < j < |ids| ==>
          store.orders[ids[i]].dateCreated >= store.orders[ids[j]].dateCreated)
    && (forall u, i :: u in store.orders && u !in ids && 0 <= i < |ids| ==>
          store.orders[u].dateCreated <= store.orders[ids[i]].dateCreated)
  }

  /** Every cached id outside `loaded` holds what it held in `c0`. */
  ghost predicate KeptOutside(c0: Cache, c: Cache, loaded: set<string>)
  {
    forall k :: k in c.entries && k !in loaded ==> k in c0.entries && c.entries[k] == c0.entries[k]
  }

  /**
   * Every cached id in `loaded` holds what `view` gives for it; `view` is
   * `Readable(store)`, what fault-free reads of the store return.
   */
  ghost predicate ReadsBack(view: map<string, Order>, c: Cache, loaded: set<string>)
  {
    forall k :: k in c.entries && k in loaded ==> k in view && c.entries[k] == view[k]
  }

  /**
   * The state after the first `i` turns of the warm-up loop: `loaded` holds
   * the ids read successfully so far, the counters are untouched, every
   * cached id outside `loaded` holds what it held in `c0`, every loaded id
   * still cached holds what the store reads back for it, and, while the
   * cache has room for every id, its keys are the old keys plus `loaded`.
   */
  ghost predicate WarmedUpTo(store: Store, c0: Cache, ids: seq<string>, faults: seq<Option<ReadStep>>,
                             i: int, c: Cache, loaded: set<string>)
  {
    && 0 <= i <= |ids| && loaded == Loaded(ids, Outcomes(store, ids, faults), i)
    && Valid(c) && c.capacity == c0.capacity && c.hits == c0.hits && c.misses == c0.misses
    && KeptOutside(c0, c, loaded)
    && ReadsBack(Readable(store), c, loaded)
    && (|c0.entries| + |ids| <= c0.capacity ==> c.entries.Keys == c0.entries.Keys + loaded)
  }

  /**
   * `warmUpCache`: when the id query fails, that error is returned before
   * any `Set`. Otherwise each id is read in turn and set in the cache when the
   * read succeeds; failed reads are skipped and nil is returned. The cache
   * afterwards is what that sequence of `Set` calls leaves, the counters are
   * untouched, every cached order afterwards is either one that was there
   * before or what the store reads back for a loaded id, and when the cache
   * has room for all ids it ends up with exactly the old keys plus the ids
   * that loaded.
   */
  method WarmUpCache(store: Store, c0: Cache, idRows: Result<seq<string>, WarmUpError>,
                     faults: seq<Option<ReadStep>>)
    returns (c: Cache, err: Option<WarmUpError>)
    requires Valid(c0)
    ensures Valid(c) && c.capacity == c0.capacity && c.hits == c0.hits && c.misses == c0.misses
    ensures idRows.Err? ==> err == Some(idRows.error) && c == c0
    ensures idRows.Ok? ==> err.None?
    ensures idRows.Ok? ==> c == LruTrace.Run(c0, WarmUpOps(store, idRows.value, faults, |idRows.value|))
    ensures idRows.Ok? ==>
              var loaded := Loaded(idRows.value, Outcomes(store, idRows.value, faults), |idRows.value|);
              && KeptOutside(c0, c, loaded)
              && ReadsBack(Readable(store), c, loaded)
              && (|c0.entries| + |idRows.value| <= c0.capacity ==> c.entries.Keys == c0.entries.Keys + loaded)
  {
    if idRows.Err? {
      return c0, Some(idRows.error);
    }
    var ids := idRows.value;
    c := c0;
    var i := 0;
    while i < |ids|
      invariant i <= |ids| && c == LruTrace.Run(c0, WarmUpOps(store, ids, faults, i))
    {
      TurnTraced(store, c0, ids, faults, i);
      var read := GetOrderByID(store, ids[i], FaultAt(faults, i));
      if read.Ok? {
        c := Set(c, ids[i], read.value);
      }
      i := i + 1;
    }
    WarmUpDone(store, c0, ids, faults);
    err := None;
  }

  /**
   * What the whole warm-up loop leaves: the counters as they were, every entry
   * outside the loaded ids as before, every loaded id still cached holding
   * what the store reads back, and, when there was room, the old keys plus
   * the loaded ids.
   */
  lemma WarmUpDone(store: Store, c0: Cache, ids: seq<string>, faults: seq<Option<ReadStep>>)
    requires Valid(c0)
    ensures var c := LruTrace.Run(c0, WarmUpOps(store, ids, faults, |ids|));
            var all := Loaded(ids, Outcomes(store, ids, faults), |ids|);
            && c.hits == c0.hits && c.misses == c0.misses
            && KeptOutside(c0, c, all)
            && ReadsBack(Readable(store), c, all)
            && (|c0.entries| + |ids| <= c0.capacity ==> c.entries.Keys == c0.entries.Keys + all)
  {
    WarmUpKeeps(store, c0, ids, faults, |ids|);
  }

  /** Before the first turn nothing is loaded and the cache is the one given. */
  lemma WarmUpStart(store: Store, c0: Cache, ids: seq<string>, faults: seq<Option<ReadStep>>)
    requires Valid(c0)
    ensures WarmedUpTo(store, c0, ids, faults, 0, c0, {})
  {
    assert c0.entries.Keys + {} == c0.entries.Keys;
  }

  /**
   * The cache the first `n` turns of the warm-up leave satisfies the loop
   * invariant of `warmUpCache`, with the ids loaded by those turns.
   */
  lemma {:induction false} WarmUpKeeps(store: Store, c0: Cache, ids: seq<string>, faults: seq<Option<ReadStep>>, n: int)
    requires Valid(c0) && 0 <= n <= |ids|
    ensures WarmedUpTo(store, c0, ids, faults, n, LruTrace.Run(c0, WarmUpOps(store, ids, faults, n)),
                       Loaded(ids, Outcomes(store, ids, faults), n))
    decreases n
  {
    if n == 0 {
      WarmUpStart(store, c0, ids, faults);
      assert WarmUpOps(store, ids, faults, 0) == [];
    } else {
      var i := n - 1;
      var before := LruTrace.Run(c0, WarmUpOps(store, ids, faults, i));
      var read := GetOrderByID(store, ids[i], FaultAt(faults, i));
      var after := if read.Ok? then Set(before, ids[i], read.value) else before;
      WarmUpKeeps(store, c0, ids, faults, i);
      TurnTraced(store, c0, ids, faults, i);
      assert LruTrace.Run(c0, WarmUpOps(store, ids, faults, n)) == after;
      WarmUpTurn(store, c0, before, ids, faults, i);
    }
  }

  /**
   * One turn of the warm-up loop keeps its invariant: the `i`-th id is read
   * and, when the read succeeds, set in the cache and added to the loaded ids.
   */
  lemma WarmUpTurn(store: Store, c0: Cache, c: Cache, ids: seq<string>, faults: seq<Option<ReadStep>>, i: int)
    requires 0 <= i < |ids| && WarmedUpTo(store, c0, ids, faults, i, c, Loaded(ids, Outcomes(store, ids, faults), i))
    ensures var read := GetOrderByID(store, ids[i], FaultAt(faults, i));
            WarmedUpTo(store, c0, ids, faults, i + 1, if read.Ok? then Set(c, ids[i], read.value) else c,
                       Loaded(ids, Outcomes(store, ids, faults), i + 1))
  {
    var read := GetOrderByID(store, ids[i], FaultAt(faults, i));
    if read.Ok? {
      WarmUpLoads(store, c0, c, ids, faults, i, read.value);
    } else {
      LoadedSkip(store, ids, faults, i);
      WarmUpSkips(store, c0, c, ids, faults, i, Loaded(ids, Outcomes(store, ids, faults), i));
    }
  }

  /** A turn whose read succeeds sets the order read and adds the id to the loaded ids. */
  lemma WarmUpLoads(store: Store, c0: Cache, c: Cache, ids: seq<string>, faults: seq<Option<ReadStep>>, i: int, v: Order)
    requires 0 <= i < |ids| && WarmedUpTo(store, c0, ids, faults, i, c, Loaded(ids, Outcomes(store, ids, faults), i))
    requires GetOrderByID(store, ids[i], FaultAt(faults, i)) == Ok(v)
    ensures WarmedUpTo(store, c0, ids, faults, i + 1, Set(c, ids[i], v), Loaded(ids, Outcomes(store, ids, faults), i + 1))
  {
    var loaded := Loaded(ids, Outcomes(store, ids, faults), i);
    LoadedAfter(store, ids, faults, i);
    ReadableReads(store, ids[i], FaultAt(faults, i));
    WarmUpSetKeeps(store, c0, c, |ids|, loaded, ids[i], v);
  }

  /** A turn whose read fails leaves the cache and the loaded ids as they were. */
  lemma WarmUpSkips(store: Store, c0: Cache, c: Cache, ids: seq<string>, faults: seq<Option<ReadStep>>,
                    i: int, loaded: set<string>)
    requires 0 <= i < |ids| && WarmedUpTo(store, c0, ids, faults, i, c, loaded)
    requires Loaded(ids, Outcomes(store, ids, faults), i + 1) == loaded
    ensures WarmedUpTo(store, c0, ids, faults, i + 1, c, loaded)
  {
  }

  /** A failed read adds nothing to the loaded ids. */
  lemma LoadedSkip(store: Store, ids: seq<string>, faults: seq<Option<ReadStep>>, i: int)
    requires 0 <= i < |ids| && GetOrderByID(store, ids[i], FaultAt(faults, i)).Err?
    ensures Loaded(ids, Outcomes(store, ids, faults), i + 1) == Loaded(ids, Outcomes(store, ids, faults), i)
  {
    LoadedAfter(store, ids, faults, i);
    assert Loaded(ids, Outcomes(store, ids, faults), i) + {} == Loaded(ids, Outcomes(store, ids, faults), i);
  }

  /** The `i`-th id joins the loaded ids exactly when its read succeeds. */
  lemma LoadedAfter(store: Store, ids: seq<string>, faults: seq<Option<ReadStep>>, i: int)
    requires 0 <= i < |ids|
    ensures var ok := Outcomes(store, ids, faults);
            Loaded(ids, ok, i + 1) ==
              Loaded(ids, ok, i) + (if GetOrderByID(store, ids[i], FaultAt(faults, i)).Ok? then {ids[i]} else {})
  {
  }

  /** Setting a readable order keeps every warm-up fact, for the loaded ids plus that one. */
  lemma WarmUpSetKeeps(store: Store, c0: Cache, c: Cache, count: int, loaded: set<string>, key: string, v: Order)
    requires Valid(c) && c.capacity == c0.capacity && KeptOutside(c0, c, loaded)
    requires ReadsBack(Readable(store), c, loaded) && key in Readable(store) && Readable(store)[key] == v
    requires |c0.entries| + count <= c0.capacity ==>
               c.entries.Keys == c0.entries.Keys + loaded && |loaded| < count
    ensures var r := Set(c, key, v);
            && KeptOutside(c0, r, loaded + {key})
            && ReadsBack(Readable(store), r, loaded + {key})
            && (|c0.entries| + count <= c0.capacity ==> r.entries.Keys == c0.entries.Keys + (loaded + {key}))
  {
    WarmUpFrame(c0, c, key, v, loaded);
    WarmUpValues(Readable(store), c, key, v, loaded);
    if |c0.entries| + count <= c0.capacity {
      WarmUpKeys(c0, c, key, v, loaded);
    }
  }

  /** Warming up from a coherent cache leaves it coherent: what it loaded was read from the store. */
  lemma WarmUpCoherent(store: Store, c0: Cache, c: Cache, loaded: set<string>)
    requires Coherent(store, c0) && KeptOutside(c0, c, loaded) && ReadsBack(Readable(store), c, loaded)
    ensures Coherent(store, c)
  {
    forall k | k in c.entries ensures Mirrors(store, k, c.entries[k]) {
      if k in loaded {
        ReadableReads(store, k, None);
        ReadMirrors(store, k, None);
      }
    }
  }

  /** A warm-up `Set` changes no entry other than the id it loads. */
  lemma WarmUpFrame(c0: Cache, c: Cache, key: string, v: Order, before: set<string>)
    requires Valid(c) && KeptOutside(c0, c, before)
    ensures KeptOutside(c0, Set(c, key, v), before + {key})
  {
  }

  /** A warm-up `Set` caches what the read returned and keeps the earlier loads. */
  lemma WarmUpValues(view: map<string, Order>, c: Cache, key: string, v: Order, before: set<string>)
    requires Valid(c) && key in view && view[key] == v && ReadsBack(view, c, before)
    ensures ReadsBack(view, Set(c, key, v), before + {key})
  {
  }

  /** While the cache has room for every id, a warm-up `Set` evicts nothing. */
  lemma WarmUpKeys(c0: Cache, c: Cache, key: string, v: Order, before: set<string>)
    requires Valid(c) && c.entries.Keys == c0.entries.Keys + before
    requires |c0.entries| + |before| < c.capacity
    ensures Set(c, key, v).entries.Keys == c0.entries.Keys + (before + {key})
  {
    WarmUpRoom(c0, c, before);
    SetWithRoom(c, key, v);
    KeysAfterWrite(c.entries, c0.entries.Keys, before, key, v);
  }

  /** While the cache has room for every id, it is below capacity before each warm-up `Set`. */
  lemma WarmUpRoom(c0: Cache, c: Cache, before: set<string>)
    requires c.entries.Keys == c0.entries.Keys + before
    requires |c0.entries| + |before| < c.capacity
    ensures |c.entries| < c.capacity
  {
    assert |c.entries.Keys| <= |c0.entries.Keys| + |before|;
  }

  /** Writing a key into a map adds exactly that key to its key set. */
  lemma KeysAfterWrite(m: map<string, Order>, keys: set<string>, before: set<string>, key: string, v: Order)
    requires m.Keys == keys + before
    ensures m[key := v].Keys == keys + (before + {key})
  {
  }

  /** No read of the warm-up fails on its own: every step runs. */
  predicate NoFaults(faults: seq<Option<ReadStep>>)
  {
    forall i :: 0 <= i < |faults| ==> faults[i].None?
  }

  /**
   * `main`'s start-up: a cache of capacity 1000, warmed with the ids the
   * query returns. A warm-up error is only logged: the service starts with
   * the empty cache. Otherwise the cache is what the warm-up's `Set` calls
   * leave, its keys are exactly the ids whose read succeeded (the query asks
   * for at most 100, so nothing is evicted), and the service starts with the
   * invariant in place. On a consistent store whose reads all succeed, every
   * id the query returns is cached, so `Len` is the smaller of 100 and the
   * number of stored orders.
   */
  method StartUpCache(store: Store, idRows: Result<seq<string>, WarmUpError>, faults: seq<Option<ReadStep>>)
    returns (c: Cache, err: Option<WarmUpError>)
    ensures Valid(c) && c.capacity == CacheCapacity
    ensures Consistent(store) ==> SystemInvariant(store, c)
    ensures idRows.Err? ==> err.Some? && c == NewLru(CacheCapacity)
    ensures idRows.Ok? ==>
              && err.None?
              && c == LruTrace.Run(NewLru(CacheCapacity), WarmUpOps(store, idRows.value, faults, |idRows.value|))
    ensures idRows.Ok? && |idRows.value| <= CacheCapacity ==>
              c.entries.Keys == Loaded(idRows.value, Outcomes(store, idRows.value, faults), |idRows.value|)
    ensures idRows.Ok? && RecentIds(store, WarmUpLimit, idRows.value) && Consistent(store) && NoFaults(faults) ==>
              Len(c) == |idRows.value| &&
              Len(c) == (if |store.orders| < WarmUpLimit then |store.orders| else WarmUpLimit)
  {
    c, err := WarmUpCache(store, NewLru(CacheCapacity), idRows, faults);
    if idRows.Ok? {
      var ids := idRows.value;
      var loaded := Loaded(ids, Outcomes(store, ids, faults), |ids|);
      WarmUpCoherent(store, NewLru(CacheCapacity), c, loaded);
      assert |ids| <= CacheCapacity ==> c.entries.Keys == loaded;
      StartUpLen(store, ids, faults, c);
    }
  }

  /**
   * The size of the warmed cache when it holds exactly the ids that loaded,
   * every id is a stored order and every read succeeds.
   */
  lemma StartUpLen(store: Store, ids: seq<string>, faults: seq<Option<ReadStep>>, c: Cache)
    requires Valid(c)
    requires |ids| <= CacheCapacity ==> c.entries.Keys == Loaded(ids, Outcomes(store, ids, faults), |ids|)
    ensures RecentIds(store, WarmUpLimit, ids) && Consistent(store) && NoFaults(faults) ==>
              Len(c) == |ids| && Len(c) == (if |store.orders| < WarmUpLimit then |store.orders| else WarmUpLimit)
  {
    if RecentIds(store, WarmUpLimit, ids) && Consistent(store) && NoFaults(faults) {
      AllLoad(store, ids, faults);
      CachedAll(ids, c);
    }
  }

  /** A cache holding exactly the distinct ids has one entry per id. */
  lemma CachedAll(ids: seq<string>, c: Cache)
    requires Valid(c) && Distinct(ids) && c.entries.Keys == set x | x in ids
    ensures Len(c) == |ids|
  {
    DistinctCardinality(ids);
  }

  /** On a consistent store, when no read fails on its own, every stored id loads. */
  lemma AllLoad(store: Store, ids: seq<string>, faults: seq<Option<ReadStep>>)
    requires Consistent(store) && NoFaults(faults)
    requires forall i :: 0 <= i < |ids| ==> ids[i] in store.orders
    ensures Loaded(ids, Outcomes(store, ids, faults), |ids|) == set x | x in ids
  {
    var ok := Outcomes(store, ids, faults);
    forall i | 0 <= i < |ok| ensures ok[i] {
      assert FaultAt(faults, i) == None;
    }
    LoadedAll(ids, ok);
  }

  /** The start-up scenario with two stored orders: the warmed cache holds both. */
  method StartUpWithTwoOrders(store: Store, ids: seq<string>) returns (n: int)
    requires Consistent(store) && |store.orders| == 2 && RecentIds(store, WarmUpLimit, ids)
    ensures n == 2
  {
    var c, err := StartUpCache(store, Ok(ids), []);
    n := Len(c);
  }
}

=== FILE: bits.dfy ===
/**
 * Level1/L1.8/BitInNumber.go: set or clear the `i`-th bit of a signed 64-bit
 * integer. Reading the three numbers from standard input and printing the
 * result are outside the model; the numbers are the parameters.
 *
 * The `int64` is modelled by its two's-complement bits, a `bv64`: Go's `|`
 * and `&^` on `int64` act on exactly those bits, and bit 63 is the sign.
 * `1 << i` takes the type of `x`, so it is a 64-bit value: a shift count of
 * 64 or more gives 0 and leaves `x` as it is, and a negative count makes the
 * program panic. `bit == 1` sets the bit; every other value clears it.
 */
module BitInNumber {
  /** The program's outcome: the resulting bits, or the run-time panic of a negative shift count. */
  datatype Outcome = Value(x: bv64) | ShiftPanic

  /** A bit position inside the 64-bit word. */
  type Position = j: bv7 | j < 64

  /** `1 << j` as a 64-bit value. */
  function Mask(j: Position): (m: bv64)
    ensures m != 0
  {
    (1 as bv64) << j
  }

  /** Whether bit `j` (counting from the least significant, 0) of `b` is set. */
  predicate Bit(b: bv64, j: Position)
  {
    b & Mask(j) != 0
  }

  /** The bit operation alone, on the mask `m == 1 << i`: `b | m` when `on`, `b &^ m` otherwise. */
  function Apply(b: bv64, m: bv64, on: bool): bv64
  {
    if on then b | m else b & !m
  }

  /** Setting bit `i` sets it. */
  lemma OrSets(b: bv64, i: Position)
    ensures (b | Mask(i)) & Mask(i) != 0
  {
  }

  /** Setting bit `i` keeps bit `j`. */
  lemma OrKeeps(b: bv64, i: Position, j: Position)
    requires i != j
    ensures (b | Mask(i)) & Mask(j) == b & Mask(j)
  {
  }

  /** Clearing bit `i` clears it. */
  lemma AndNotClears(b: bv64, i: Position)
    ensures (b & !Mask(i)) & Mask(i) == 0
  {
  }

  /** Clearing bit `i` keeps bit `j`. */
  lemma AndNotKeeps(b: bv64, i: Position, j: Position)
    requires i != j
    ensures (b & !Mask(i)) & Mask(j) == b & Mask(j)
  {
  }

  /** Bit `j` after `Apply`: bit `i` becomes `bit == 1`, every other bit is kept. */
  lemma ApplyBit(b: bv64, i: Position, bit: int, j: Position)
    ensures Bit(Apply(b, Mask(i), bit == 1), j) == if j == i then bit == 1 else Bit(b, j)
  {
    if bit == 1 {
      if j == i { OrSets(b, i); } else { OrKeeps(b, i, j); }
    } else {
      if j == i { AndNotClears(b, i); } else { AndNotKeeps(b, i, j); }
    }
  }

  /** All 64 bits after `Apply` at once. */
  lemma ApplyBits(b: bv64, i: Position, bit: int)
    ensures Bit(Apply(b, Mask(i), bit == 1), i) == (bit == 1)
    ensures forall j: Position :: j != i ==> Bit(Apply(b, Mask(i), bit == 1), j) == Bit(b, j)
  {
    ApplyBit(b, i, bit, i);
    forall j: Position | j != i
      ensures Bit(Apply(b, Mask(i), bit == 1), j) == Bit(b, j)
    {
      ApplyBit(b, i, bit, j);
    }
  }

  /**
   * The program: a negative bit number panics, a number of 64 or more leaves
   * `x` unchanged; otherwise bit `i` of the result is 1 exactly when `bit` is
   * 1, and all other bits are those of `x`.
   */
  function SetBit(x: bv64, i: int, bit: int): (r: Outcome)
    ensures r.ShiftPanic? <==> i < 0
    ensures i >= 64 ==> r == Value(x)
    ensures 0 <= i < 64 ==> r.Value? && Bit(r.x, i as bv7) == (bit == 1)
    ensures 0 <= i < 64 ==> r.Value? && forall j: Position :: j != i as bv7 ==> Bit(r.x, j) == Bit(x, j)
  {
    if i < 0 then ShiftPanic
    else if i >= 64 then Value(x)
    else
      var p: Position := i as bv7;
      ApplyBits(x, p, bit);
      Value(Apply(x, Mask(p), bit == 1))
  }

  /** A single-bit mask picks out either nothing or the whole mask. */
  lemma OneHot(b: bv64, i: Position)
    ensures b & Mask(i) == 0 || b & Mask(i) == Mask(i)
  {
  }

  /** Setting bits a word already has changes nothing. */
  lemma OrAbsorbs(b: bv64, m: bv64)
    requires b & m == m
    ensures b | m == b
  {
  }

  /** Clearing bits a word does not have changes nothing. */
  lemma AndNotAbsorbs(b: bv64, m: bv64)
    requires b & m == 0
    ensures b & !m == b
  {
  }

  /** Setting the bits of a mask twice sets them once. */
  lemma OrTwice(b: bv64, m: bv64)
    ensures (b | m) | m == b | m
  {
  }

  /** Clearing the bits of a mask twice clears them once. */
  lemma AndNotTwice(b: bv64, m: bv64)
    ensures (b & !m) & !m == b & !m
  {
  }

  /** Setting bits twice is setting them once. */
  lemma ApplyOnTwice(b: bv64, m: bv64)
    ensures Apply(Apply(b, m, true), m, true) == Apply(b, m, true)
  {
    OrTwice(b, m);
  }

  /** Clearing bits twice is clearing them once. */
  lemma ApplyOffTwice(b: bv64, m: bv64)
    ensures Apply(Apply(b, m, false), m, false) == Apply(b, m, false)
  {
    AndNotTwice(b, m);
  }

  /** A bit that already has the requested value is left as it is. */
  lemma ApplyAlreadyThere(b: bv64, i: Position, bit: int)
    requires Bit(b, i) == (bit == 1)
    ensures Apply(b, Mask(i), bit == 1) == b
  {
    OneHot(b, i);
    if bit == 1 {
      OrAbsorbs(b, Mask(i));
    } else {
      AndNotAbsorbs(b, Mask(i));
    }
  }

  /** For a bit number inside the word, the program applies the write with `1 << i`. */
  lemma SetBitIs(x: bv64, i: int, bit: int)
    requires 0 <= i < 64
    ensures SetBit(x, i, bit) == Value(Apply(x, Mask(i as bv7), bit == 1))
  {
  }

  /** Running the program on its own result with the same bit changes nothing more. */
  lemma SetBitIdempotent(x: bv64, i: int, bit: int)
    requires 0 <= i
    ensures SetBit(SetBit(x, i, bit).x, i, bit) == SetBit(x, i, bit)
  {
    if i < 64 {
      var m := Mask(i as bv7);
      SetBitIs(x, i, bit);
      SetBitIs(Apply(x, m, bit == 1), i, bit);
      if bit == 1 { ApplyOnTwice(x, m); } else { ApplyOffTwice(x, m); }
    }
  }

  /** A bit that already has the requested value leaves the number unchanged. */
  lemma AlreadyThere(x: bv64, i: int, bit: int)
    requires 0 <= i < 64 && Bit(x, i as bv7) == (bit == 1)
    ensures SetBit(x, i, bit) == Value(x)
  {
    ApplyAlreadyThere(x, i as bv7, bit);
  }
}

=== FILE: coherence.dfy ===
/**
 * How the cache relates to the store. A cached order mirrors the store when
 * its uid has a header row and the cached delivery, payment and items
 * (as a multiset) are the stored ones. Its header is one of two: the stored
 * header, for an order cached by ingestion, or the zero header that
 * `GetOrderByID` returns, for an order cached after a store read.
 */
module Coherence {
  import opened Wrappers
  import opened Models
  import opened Storage
  import opened Lru

  ghost predicate Mirrors(s: Store, k: string, v: Order)
  {
    && k in s.orders && k in s.delivery && k in s.payment
    && v.orderUid == k
    && (HeaderOf(v) == s.orders[k] || HeaderOf(v) == HeaderOf(ZeroOrder))
    && v.delivery == s.delivery[k]
    && v.payment == s.payment[k]
    && multiset(v.items) == multiset(ItemsOf(s.items, k))
  }

  /** Every cached order mirrors the store. */
  ghost predicate Coherent(s: Store, c: Cache)
  {
    forall k :: k in c.entries ==> Mirrors(s, k, c.entries[k])
  }

  /** The invariant of the whole service: a consistent store, a valid cache, and the two coherent. */
  ghost predicate SystemInvariant(s: Store, c: Cache)
  {
    Consistent(s) && Valid(c) && Coherent(s, c)
  }

  /**
   * `Set` leaves a coherent cache when the value it stores mirrors the store
   * and every other cached order did already.
   */
  lemma SetKeepsCoherent(s: Store, c: Cache, k: string, v: Order)
    requires Valid(c) && Mirrors(s, k, v)
    requires forall x :: x in c.entries && x != k ==> Mirrors(s, x, c.entries[x])
    ensures Coherent(s, Set(c, k, v))
  {
    var r := Set(c, k, v);
    forall x | x in r.entries ensures Mirrors(s, x, r.entries[x]) {
      if x != k {
        assert x in c.entries && r.entries[x] == c.entries[x];
      }
    }
  }

  /** A successful read returns an order that mirrors the store. */
  lemma ReadMirrors(s: Store, id: string, fault: Option<ReadStep>)
    requires GetOrderByID(s, id, fault).Ok?
    ensures Mirrors(s, id, GetOrderByID(s, id, fault).value)
  {
  }

  /**
   * A successful upsert keeps every cached order of another uid mirrored, and
   * `o` itself mirrors the new store.
   */
  lemma UpsertKeepsOthers(s: Store, c: Cache, o: Order, fault: Option<TxStep>)
    requires Coherent(s, c)
    ensures var t := UpsertOrder(s, o, fault).store;
            && (forall k :: k in c.entries && k != o.orderUid ==> Mirrors(t, k, c.entries[k]))
            && (UpsertOrder(s, o, fault).err.None? ==> Mirrors(t, o.orderUid, o))
  {
    var t := UpsertOrder(s, o, fault).store;
    forall k | k in c.entries && k != o.orderUid ensures Mirrors(t, k, c.entries[k]) {
      if UpsertOrder(s, o, fault).err.None? {
        assert SameRows(s, t, k);
      }
    }
  }
}

=== FILE: consumer.dfy ===
/**
 * The ingestion loop of wb-orders/internal/kafka/consumer.go (`Run`), one
 * message at a time over the store and the cache.
 *
 * Reading from the stream, JSON decoding and the database are outside the
 * model: each inbound message arrives as the outcome of the blocking read (a
 * decoded order, an undecodable payload, or a failed read together with
 * whether the context was cancelled) paired with the fault oracle for its
 * upsert. Logging and periodic offset commits are not modelled.
 */
module Consumer {
  import opened Wrappers
  import opened Models
  import opened Storage
  import opened Lru
  import opened Coherence

  /** The outcome of `reader.ReadMessage`; `payload` is `None` when `json.Unmarshal` fails. */
  datatype ReadResult = Message(payload: Option<Order>) | ReadFailed(cancelled: bool)

  /** One turn of the loop: what the read produced and how the upsert would fare. */
  datatype Inbound = Inbound(read: ReadResult, fault: Option<TxStep>)

  datatype State = State(store: Store, cache: Cache)

  /** What one turn did with a message it read. */
  datatype Handled =
    | StoredAndCached
    | SkippedBadJson
    | SkippedInvalid(reason: ValidationError)
    | SkippedStoreError(err: UpsertError)

  /** `Run`'s returned error: the wrapped read error. */
  datatype RunError = ReadMessageError

  /** Either the loop goes on, or `Run` returns (`None` for nil). */
  datatype Next = Continue(handled: Handled) | Return(err: Option<RunError>)

  datatype Turn = Turn(state: State, next: Next)

  /**
   * One iteration of the loop body. A failed read ends `Run`, with nil when
   * the context was cancelled; an undecodable or invalid order is skipped; a
   * failed upsert is skipped; a stored order is then set in the cache, as
   * decoded.
   */
  function Step(st: State, m: Inbound): (r: Turn)
    requires Valid(st.cache)
    ensures Valid(r.state.cache)
    ensures m.read.ReadFailed? <==> r.next.Return?
    ensures r.next.Return? ==> r.state == st && (r.next.err.None? <==> m.read.cancelled)
    ensures m.read == Message(None) ==> r == Turn(st, Continue(SkippedBadJson))
    ensures m.read.Message? && m.read.payload.Some? && ValidateOrder(m.read.payload.value).Some? ==>
              r == Turn(st, Continue(SkippedInvalid(ValidateOrder(m.read.payload.value).value)))
    ensures r.next == Continue(StoredAndCached) <==>
              && m.read.Message? && m.read.payload.Some?
              && ValidateOrder(m.read.payload.value).None?
              && UpsertOrder(st.store, m.read.payload.value, m.fault).err.None?
    ensures r.next.Continue? && r.next.handled.SkippedStoreError? ==> r.state == st
    ensures (&& m.read.Message? && m.read.payload.Some?
             && ValidateOrder(m.read.payload.value).None?
             && UpsertOrder(st.store, m.read.payload.value, m.fault).err.Some?)
            ==> r == Turn(st, Continue(SkippedStoreError(UpsertOrder(st.store, m.read.payload.value, m.fault).err.value)))
    ensures r.next == Continue(StoredAndCached) ==>
              var o := m.read.payload.value;
              && Holds(r.state.store, o)
              && (forall u :: u != o.orderUid ==> SameRows(st.store, r.state.store, u))
              && o.orderUid in r.state.cache.entries && r.state.cache.entries[o.orderUid] == o
              && r.state.cache.hits == st.cache.hits && r.state.cache.misses == st.cache.misses
              && r.state.cache == Set(st.cache, o.orderUid, o)
  {
    match m.read
    case ReadFailed(cancelled) =>
      Turn(st, Return(if cancelled then None else Some(ReadMessageError)))
    case Message(None) => Turn(st, Continue(SkippedBadJson))
    case Message(Some(o)) =>
      match ValidateOrder(o)
      case Some(reason) => Turn(st, Continue(SkippedInvalid(reason)))
      case None =>
        var tx := UpsertOrder(st.store, o, m.fault);
        if tx.err.Some? then Turn(st, Continue(SkippedStoreError(tx.err.value)))
        else Turn(State(tx.store, Set(st.cache, o.orderUid, o)), Continue(StoredAndCached))
  }

  /** Where `Run` is after the given messages: returned, or still waiting for the next one. */
  datatype RunResult = Returned(state: State, err: Option<RunError>) | Running(state: State)

  /** Whether `msgs[i]` is the first failed read. */
  predicate FirstFailedRead(msgs: seq<Inbound>, i: int)
  {
    && 0 <= i < |msgs| && msgs[i].read.ReadFailed?
    && forall j :: 0 <= j < i ==> msgs[j].read.Message?
  }

  /**
   * `Run` over a finite stretch of the stream: it keeps going while reads
   * succeed and returns at the first failed read, nil exactly when that read
   * failed through cancellation.
   */
  function Run(st: State, msgs: seq<Inbound>): (r: RunResult)
    requires Valid(st.cache)
    ensures Valid(r.state.cache)
    ensures r.Running? <==> forall i :: 0 <= i < |msgs| ==> msgs[i].read.Message?
    ensures r.Returned? ==> exists i :: FirstFailedRead(msgs, i) &&
                              (r.err.None? <==> msgs[i].read.cancelled)
    decreases |msgs|
  {
    if |msgs| == 0 then Running(st)
    else
      var t := Step(st, msgs[0]);
      match t.next
      case Return(err) =>
        assert FirstFailedRead(msgs, 0);
        Returned(t.state, err)
      case Continue(_) =>
        var r := Run(t.state, msgs[1..]);
        assert forall i :: 1 <= i < |msgs| ==> msgs[i] == msgs[1..][i - 1];
        if r.Returned? then
          var i :| FirstFailedRead(msgs[1..], i) && (r.err.None? <==> msgs[1..][i].read.cancelled);
          assert FirstFailedRead(msgs, i + 1);
          r
        else r
  }

  /**
   * Redelivery is harmless: handling the same valid, successfully stored
   * message a second time leaves the store and the cache as the first time.
   */
  lemma ReprocessIdempotent(st: State, o: Order)
    requires Valid(st.cache) && ValidateOrder(o).None?
    ensures var m := Inbound(Message(Some(o)), None);
            var once := Step(st, m);
            Step(once.state, m) == once
  {
    var m := Inbound(Message(Some(o)), None);
    UpsertIdempotent(st.store, o);
    SetIdempotent(st.cache, o.orderUid, o);
  }

  /** Every turn keeps the store consistent, the cache valid and the two coherent. */
  lemma StepKeepsInvariant(st: State, m: Inbound)
    requires SystemInvariant(st.store, st.cache)
    ensures var r := Step(st, m).state;
            SystemInvariant(r.store, r.cache)
  {
    if m.read.Message? && m.read.payload.Some? && ValidateOrder(m.read.payload.value).None? {
      var o := m.read.payload.value;
      var tx := UpsertOrder(st.store, o, m.fault);
      if tx.err.None? {
        UpsertKeepsOthers(st.store, st.cache, o, m.fault);
        SetKeepsCoherent(tx.store, st.cache, o.orderUid, o);
      }
    }
  }

  /** The whole loop keeps the service invariant. */
  lemma {:induction false} RunKeepsInvariant(st: State, msgs: seq<Inbound>)
    requires SystemInvariant(st.store, st.cache)
    ensures var r := Run(st, msgs).state;
            SystemInvariant(r.store, r.cache)
    decreases |msgs|
  {
    if |msgs| > 0 {
      StepKeepsInvariant(st, msgs[0]);
      if Step(st, msgs[0]).next.Continue? {
        RunKeepsInvariant(Step(st, msgs[0]).state, msgs[1..]);
      }
    }
  }

  /** Nothing after the first failed read is consumed: `Run` has returned by then. */
  lemma {:induction false} RunStopsAtFailedRead(st: State, msgs: seq<Inbound>, i: int)
    requires Valid(st.cache) && FirstFailedRead(msgs, i)
    ensures Run(st, msgs) == Run(st, msgs[..i + 1])
    decreases i
  {
    var t := Step(st, msgs[0]);
    assert msgs[..i + 1][0] == msgs[0];
    if i > 0 {
      assert FirstFailedRead(msgs[1..], i - 1);
      RunStopsAtFailedRead(t.state, msgs[1..], i - 1);
      assert msgs[1..][..i] == msgs[..i + 1][1..];
    }
  }
}

=== FILE: item_order.dfy ===
/**
 * Ordering of an order's items by catalog id, as the items query of
 * `GetOrderByID` requests with `ORDER BY chrt_id`
 * (wb-orders/internal/storage/repo.go). SQL leaves the order of equal
 * catalog ids open; this model settles it with a stable insertion sort.
 */
module ItemOrder {
  import opened Models

  predicate SortedByChrt(s: seq<Item>)
  {
    forall i, j :: 0 <= i < j < |s| ==> s[i].chrtId <= s[j].chrtId
  }

  lemma SortedCons(x: Item, t: seq<Item>)
    requires SortedByChrt(t) && (|t| == 0 || x.chrtId <= t[0].chrtId)
    ensures SortedByChrt([x] + t)
  {
    forall i, j | 0 <= i < j < |[x] + t| ensures ([x] + t)[i].chrtId <= ([x] + t)[j].chrtId {
      if i == 0 && j > 1 {
        assert t[0].chrtId <= t[j - 1].chrtId;
      }
    }
  }

  /** Places `it` before the first item whose catalog id is not smaller. */
  function InsertByChrt(it: Item, s: seq<Item>): (r: seq<Item>)
    requires SortedByChrt(s)
    ensures SortedByChrt(r)
    ensures multiset(r) == multiset(s) + multiset{it}
    ensures |r| == |s| + 1
    ensures r[0] == it || (|s| > 0 && r[0] == s[0])
  {
    if |s| == 0 then [it]
    else if it.chrtId <= s[0].chrtId then
      SortedCons(it, s);
      [it] + s
    else
      var rest := InsertByChrt(it, s[1..]);
      assert s == [s[0]] + s[1..];
      SortedCons(s[0], rest);
      [s[0]] + rest
  }

  /** The items sorted by catalog id: a sorted permutation of the input. */
  function SortByChrt(s: seq<Item>): (r: seq<Item>)
    ensures SortedByChrt(r)
    ensures multiset(r) == multiset(s)
    ensures |r| == |s|
  {
    if |s| == 0 then []
    else
      assert s == [s[0]] + s[1..];
      InsertByChrt(s[0], SortByChrt(s[1..]))
  }

  /** Sorting an already sorted list leaves it as it is. */
  lemma {:induction false} SortSortedIsIdentity(s: seq<Item>)
    requires SortedByChrt(s)
    ensures SortByChrt(s) == s
  {
    if |s| > 0 {
      assert SortedByChrt(s[1..]);
      SortSortedIsIdentity(s[1..]);
      assert s == [s[0]] + s[1..];
    }
  }
}

=== FILE: lru.dfy ===
/**
 * The bounded LRU cache of orders (wb-orders/internal/cache/lru.go).
 *
 * The Go type keeps a hash index into a doubly-linked list. Here the list is
 * the sequence `recency` of keys, front (index 0) = most recently used, back =
 * least recently used, and the index is the map `entries` from key to value.
 * The mutex and the per-entry access time are not modelled: every operation
 * is one atomic transition that returns the new cache.
 */
module Lru {
  import opened Models

  /** 2^64: Go's `uint64` hit and miss counters wrap around at this value. */
  const U64Modulus: int := 0x1_0000_0000_0000_0000

  newtype u64 = n: int | 0 <= n < 0x1_0000_0000_0000_0000

  /** Go's `n++` on a `uint64`. */
  function Inc(n: u64): (r: u64)
    ensures r as int == (n as int + 1) % U64Modulus
  {
    if n as int == U64Modulus - 1 then 0 else n + 1
  }

  datatype Cache = Cache(
    capacity: int,
    recency: seq<string>,
    entries: map<string, Order>,
    hits: u64,
    misses: u64)

  /** The result of `Get`: the cache after the call and Go's `(V, bool)` pair. */
  datatype Lookup = Lookup(cache: Cache, value: Order, found: bool)

  predicate Distinct(s: seq<string>)
  {
    forall i, j :: 0 <= i < j < |s| ==> s[i] != s[j]
  }

  /**
   * The representation invariant: a positive capacity that is never exceeded,
   * and a recency list that holds every indexed key exactly once.
   */
  ghost predicate Valid(c: Cache)
  {
    && 1 <= c.capacity
    && Distinct(c.recency)
    && (forall k :: k in c.entries <==> k in c.recency)
    && |c.recency| <= c.capacity
  }

  /** Prepending a fresh element keeps a list free of duplicates. */
  lemma DistinctCons(x: string, t: seq<string>)
    ensures Distinct(t) && x !in t ==> Distinct([x] + t)
  {
    if Distinct(t) && x !in t {
      forall i, j | 0 <= i < j < |[x] + t| ensures ([x] + t)[i] != ([x] + t)[j] {
        if i == 0 {
          assert ([x] + t)[j] == t[j - 1];
        }
      }
    }
  }

  /** `s` with every occurrence of `k` taken out, the rest in order. */
  function Without(s: seq<string>, k: string): (r: seq<string>)
    ensures forall x :: x in r <==> x in s && x != k
    ensures |r| <= |s|
    ensures k !in s ==> r == s
    ensures Distinct(s) ==> Distinct(r)
    ensures Distinct(s) && k in s ==> |r| == |s| - 1
  {
    if |s| == 0 then []
    else
      var rest := Without(s[1..], k);
      assert Distinct(s) ==> Distinct(s[1..]) && s[0] !in rest;
      assert s == [s[0]] + s[1..];
      if s[0] == k then rest
      else
        DistinctCons(s[0], rest);
        [s[0]] + rest
  }

  /** In a list without duplicates, removing a key closes the gap it leaves. */
  lemma {:induction false} WithoutSplice(s: seq<string>, k: string, i: int)
    requires Distinct(s) && 0 <= i < |s| && s[i] == k
    ensures Without(s, k) == s[..i] + s[i + 1..]
  {
    if i > 0 {
      assert s[0] != s[i];
      assert Without(s, k) == [s[0]] + Without(s[1..], k);
      assert Distinct(s[1..]);
      WithoutSplice(s[1..], k, i - 1);
      assert s[1..][..i - 1] == s[1..i] && s[1..][i..] == s[i + 1..];
      assert [s[0]] + s[1..i] == s[..i];
      assert [s[0]] + (s[1..i] + s[i + 1..]) == s[..i] + s[i + 1..];
    } else {
      assert k !in s[1..];
      assert Without(s, k) == Without(s[1..], k);
      assert s[..0] + s[1..] == s[1..];
    }
  }

  /** The position of `k` in `s`. */
  function IndexOf(s: seq<string>, k: string): (i: int)
    requires k in s
    ensures 0 <= i < |s| && s[i] == k
  {
    if s[0] == k then 0 else 1 + IndexOf(s[1..], k)
  }

  /**
   * The list after a key already in it becomes the most recently used: the
   * key comes first and every other key keeps its relative order.
   */
  function MoveToFront(s: seq<string>, k: string): (r: seq<string>)
    requires Distinct(s) && k in s
    ensures Distinct(r) && |r| == |s|
    ensures forall x :: x in r <==> x in s
    ensures r == [k] + Without(s, k)
  {
    var i := IndexOf(s, k);
    WithoutSplice(s, k, i);
    DistinctCons(k, Without(s, k));
    [k] + Without(s, k)
  }

  /** Where the moved key came from. */
  lemma MoveToFrontSplice(s: seq<string>, k: string)
    requires Distinct(s) && k in s
    ensures MoveToFront(s, k) == [k] + s[..IndexOf(s, k)] + s[IndexOf(s, k) + 1..]
  {
    var i := IndexOf(s, k);
    var a, b := s[..i], s[i + 1..];
    WithoutSplice(s, k, i);
    assert [k] + (a + b) == [k] + a + b;
  }

  /** A list without duplicates is as long as the set of its elements. */
  lemma {:induction false} DistinctCardinality(s: seq<string>)
    requires Distinct(s)
    ensures |set x | x in s| == |s|
  {
    if |s| > 0 {
      assert Distinct(s[1..]);
      DistinctCardinality(s[1..]);
      assert (set x | x in s) == {s[0]} + (set x | x in s[1..]);
      assert s[0] !in s[1..];
    }
  }

  /** Under the invariant the index and the list have the same size. */
  lemma SizeAgrees(c: Cache)
    requires Valid(c)
    ensures |c.entries| == |c.recency|
  {
    DistinctCardinality(c.recency);
    assert c.entries.Keys == set x | x in c.recency;
  }

  /** `NewLRU`: an empty cache; a capacity of 0 or less becomes 1. */
  function NewLru(capacity: int): (c: Cache)
    ensures Valid(c)
    ensures capacity <= 0 ==> c.capacity == 1
    ensures capacity > 0 ==> c.capacity == capacity
    ensures |c.entries| == 0 && c.hits == 0 && c.misses == 0
  {
    Cache(if capacity <= 0 then 1 else capacity, [], map[], 0, 0)
  }

  /**
   * `Get`: a hit returns the stored value, moves the key to the front and
   * counts a hit; a miss returns the zero order and counts a miss only.
   * Neither changes the stored keys or values.
   */
  function Get(c: Cache, key: string): (r: Lookup)
    requires Valid(c)
    ensures Valid(r.cache)
    ensures r.found <==> key in c.entries
    ensures r.cache.entries == c.entries && r.cache.capacity == c.capacity
    ensures r.found ==> && r.value == c.entries[key]
                        && r.cache.hits as int == (c.hits as int + 1) % U64Modulus
                        && r.cache.misses == c.misses
                        && r.cache.recency == [key] + c.recency[..IndexOf(c.recency, key)]
                                                    + c.recency[IndexOf(c.recency, key) + 1..]
    ensures !r.found ==> && r.value == ZeroOrder
                         && r.cache.recency == c.recency
                         && r.cache.hits == c.hits
                         && r.cache.misses as int == (c.misses as int + 1) % U64Modulus
  {
    if key in c.entries then
      MoveToFrontSplice(c.recency, key);
      Lookup(c.(recency := MoveToFront(c.recency, key), hits := Inc(c.hits)), c.entries[key], true)
    else
      Lookup(c.(misses := Inc(c.misses)), ZeroOrder, false)
  }

  /**
   * `Set`: the key ends up at the front holding `v`; the counters never change
   * and no other entry changes its value. Nothing is evicted unless a new key
   * arrives at a full cache, and then only the back (least recently used) key
   * goes. `SetOrder` states the resulting list exactly.
   */
  function Set(c: Cache, key: string, v: Order): (r: Cache)
    requires Valid(c)
    ensures Valid(r)
    ensures key in r.entries && r.entries[key] == v && r.recency[0] == key
    ensures r.capacity == c.capacity && r.hits == c.hits && r.misses == c.misses
    ensures forall k :: k in r.entries && k != key ==> k in c.entries && r.entries[k] == c.entries[k]
    ensures key in c.entries || |c.recency| < c.capacity ==>
              forall k :: k in c.entries ==> k in r.entries
    ensures key !in c.entries && |c.recency| == c.capacity ==>
              && c.recency[|c.recency| - 1] !in r.entries
              && forall k :: k in c.entries && k != c.recency[|c.recency| - 1] ==> k in r.entries
  {
    if key in c.entries then Overwrite(c, key, v) else Insert(c, key, v)
  }

  /** The existing-key branch of `Set`: new value, moved to the front, nothing evicted. */
  function Overwrite(c: Cache, key: string, v: Order): (r: Cache)
    requires Valid(c) && key in c.entries
    ensures Valid(r)
    ensures r.capacity == c.capacity && r.hits == c.hits && r.misses == c.misses
    ensures r.entries == c.entries[key := v]
    ensures r.recency == [key] + c.recency[..IndexOf(c.recency, key)]
                               + c.recency[IndexOf(c.recency, key) + 1..]
  {
    MoveToFrontSplice(c.recency, key);
    c.(recency := MoveToFront(c.recency, key), entries := c.entries[key := v])
  }

  /** The new-key branch of `Set`: pushed to the front, then the back evicted if over capacity. */
  function Insert(c: Cache, key: string, v: Order): (r: Cache)
    requires Valid(c) && key !in c.entries
    ensures Valid(r)
    ensures r.capacity == c.capacity && r.hits == c.hits && r.misses == c.misses
    ensures |c.recency| < c.capacity ==>
              && r.entries == c.entries[key := v]
              && r.recency == [key] + c.recency
    ensures |c.recency| == c.capacity ==>
              && r.entries == c.entries[key := v] - {c.recency[|c.recency| - 1]}
              && r.recency == [key] + c.recency[..|c.recency| - 1]
  {
    var pushed := [key] + c.recency;
    DistinctCons(key, c.recency);
    if |pushed| > c.capacity then
      assert pushed[..c.capacity] == [key] + c.recency[..|c.recency| - 1];
      Evict(c.(recency := pushed, entries := c.entries[key := v]))
    else
      c.(recency := pushed, entries := c.entries[key := v])
  }

  /**
   * Drops the back of a list that holds one key more than the capacity,
   * together with its index entry.
   */
  function Evict(c: Cache): (r: Cache)
    requires 1 <= c.capacity && |c.recency| == c.capacity + 1 && Distinct(c.recency)
    requires forall k :: k in c.entries <==> k in c.recency
    ensures Valid(r)
    ensures r.recency == c.recency[..c.capacity]
    ensures r.entries == c.entries - {c.recency[c.capacity]}
    ensures r.capacity == c.capacity && r.hits == c.hits && r.misses == c.misses
  {
    var victim := c.recency[c.capacity];
    assert forall k :: k in c.recency[..c.capacity] <==> k in c.recency && k != victim;
    c.(recency := c.recency[..c.capacity], entries := c.entries - {victim})
  }

  /**
   * The exact effect of `Set` on the index and the recency list: an existing
   * key moves to the front; a new key is pushed on the front, and when the
   * cache was full the back key is dropped from both.
   */
  lemma SetOrder(c: Cache, key: string, v: Order)
    requires Valid(c)
    ensures var r := Set(c, key, v);
            key in c.entries ==>
              && r.entries == c.entries[key := v]
              && r.recency == [key] + c.recency[..IndexOf(c.recency, key)]
                                    + c.recency[IndexOf(c.recency, key) + 1..]
    ensures var r := Set(c, key, v);
            key !in c.entries && |c.recency| < c.capacity ==>
              && r.entries == c.entries[key := v]
              && r.recency == [key] + c.recency
    ensures var r := Set(c, key, v);
            key !in c.entries && |c.recency| == c.capacity ==>
              && r.entries == c.entries[key := v] - {c.recency[|c.recency| - 1]}
              && r.recency == [key] + c.recency[..|c.recency| - 1]
  {
  }

  /** Setting the same key to the same value twice is the same as setting it once. */
  lemma SetIdempotent(c: Cache, key: string, v: Order)
    requires Valid(c)
    ensures Set(Set(c, key, v), key, v) == Set(c, key, v)
  {
    var once := Set(c, key, v);
    var rest := once.recency[1..];
    assert once.recency == [key] + rest;
    assert key !in rest;
    assert Without(once.recency, key) == Without(rest, key) == rest;
    assert once.entries[key := v] == once.entries;
    assert Set(once, key, v) == Overwrite(once, key, v);
  }

  /** While the cache is below capacity, `Set` evicts nothing: the entry is simply written. */
  lemma SetWithRoom(c: Cache, key: string, v: Order)
    requires Valid(c) && |c.entries| < c.capacity
    ensures Set(c, key, v).entries == c.entries[key := v]
  {
    SizeAgrees(c);
  }

  /** `Len`: the number of cached orders, never above the capacity. */
  function Len(c: Cache): (n: int)
    requires Valid(c)
    ensures n == |c.entries| && 0 <= n <= c.capacity
  {
    SizeAgrees(c);
    |c.recency|
  }

  /** `Stats`: the cumulative hit and miss counters. */
  function Stats(c: Cache): (hitsAndMisses: (u64, u64))
  {
    (c.hits, c.misses)
  }
}

=== FILE: lru_trace.dfy ===
/**
 * What "least recently used" means for the cache of lru.go, stated against
 * an independent reference: the history of keys the cache has touched.
 *
 * A key is touched by every `Set` and by every `Get` that hits (lru.go moves
 * the list element to the front in exactly those two places). The theorem
 * `RunIsLru` says that after any sequence of operations the recency list is
 * ordered by the time of each key's last touch, and that every touched key no
 * longer cached was touched before every cached key: the cache holds the most
 * recently touched keys, and its back is the least recently touched of them.
 */
module LruTrace {
  import opened Models
  import opened Lru

  /** One call on the cache. */
  datatype Op = GetOp(key: string) | SetOp(key: string, value: Order)

  function Step(c: Cache, op: Op): (r: Cache)
    requires Valid(c)
    ensures Valid(r) && r.capacity == c.capacity
  {
    match op
    case GetOp(k) => Get(c, k).cache
    case SetOp(k, v) => Set(c, k, v)
  }

  function Run(c: Cache, ops: seq<Op>): (r: Cache)
    requires Valid(c)
    ensures Valid(r) && r.capacity == c.capacity
    decreases |ops|
  {
    if |ops| == 0 then c else Run(Step(c, ops[0]), ops[1..])
  }

  /** The key `op` makes most recent in `c`, if any: a `Set`, or a `Get` that hits. */
  function Touched(c: Cache, op: Op): seq<string>
  {
    if op.SetOp? || op.key in c.entries then [op.key] else []
  }

  /** The keys touched by running `ops` from `c`, oldest first. */
  ghost function History(c: Cache, ops: seq<Op>): seq<string>
    requires Valid(c)
    decreases |ops|
  {
    if |ops| == 0 then [] else Touched(c, ops[0]) + History(Step(c, ops[0]), ops[1..])
  }

  /** The number of `Get` calls in `ops`. */
  function Lookups(ops: seq<Op>): nat
  {
    if |ops| == 0 then 0 else (if ops[0].GetOp? then 1 else 0) + Lookups(ops[1..])
  }

  /** The position of the last touch of `x` in the history `h`; -1 if never touched. */
  function LastTouch(h: seq<string>, x: string): (t: int)
    ensures -1 <= t < |h|
    ensures t == -1 <==> x !in h
    ensures t >= 0 ==> h[t] == x
  {
    if |h| == 0 then -1
    else if h[|h| - 1] == x then |h| - 1
    else LastTouch(h[..|h| - 1], x)
  }

  /** Every key of `rec` has been touched. */
  ghost predicate AllTouched(rec: seq<string>, h: seq<string>)
  {
    forall i :: 0 <= i < |rec| ==> rec[i] in h
  }

  /** `rec` runs from the latest last touch to the earliest. */
  ghost predicate ByLastTouch(rec: seq<string>, h: seq<string>)
  {
    forall i, j :: 0 <= i < j < |rec| ==> LastTouch(h, rec[i]) > LastTouch(h, rec[j])
  }

  /** Every touched key outside `rec`, other than those in `spared`, was last touched before every key in `rec`. */
  ghost predicate OutsideOlder(rec: seq<string>, h: seq<string>, spared: set<string>)
  {
    forall x, i :: x in h && x !in rec && x !in spared && 0 <= i < |rec| ==> LastTouch(h, x) < LastTouch(h, rec[i])
  }

  /**
   * The LRU discipline of a recency list relative to a history: every cached
   * key was touched, the list runs from the latest last touch to the earliest,
   * and a touched key that is not cached was last touched before every cached
   * key.
   */
  ghost predicate LruOrdered(rec: seq<string>, h: seq<string>)
  {
    && AllTouched(rec, h)
    && ByLastTouch(rec, h)
    && OutsideOlder(rec, h, {})
  }

  lemma LastTouchExtend(h: seq<string>, k: string, x: string)
    ensures LastTouch(h + [k], x) == if x == k then |h| else LastTouch(h, x)
  {
    assert (h + [k])[..|h|] == h;
  }

  /** Touching a key and putting it in front of a list ordered by last touch keeps the LRU order. */
  lemma TouchFront(rest: seq<string>, h: seq<string>, k: string)
    requires AllTouched(rest, h) && ByLastTouch(rest, h) && OutsideOlder(rest, h, {k}) && k !in rest
    ensures LruOrdered([k] + rest, h + [k])
  {
    FrontTouched(rest, h, k);
    FrontByLastTouch(rest, h, k);
    FrontOutsideOlder(rest, h, k);
  }

  lemma FrontTouched(rest: seq<string>, h: seq<string>, k: string)
    requires AllTouched(rest, h)
    ensures AllTouched([k] + rest, h + [k])
  {
    var rec := [k] + rest;
    forall i | 0 <= i < |rec| ensures rec[i] in h + [k] {
      if i > 0 {
        assert rec[i] == rest[i - 1];
      }
    }
  }

  lemma FrontByLastTouch(rest: seq<string>, h: seq<string>, k: string)
    requires ByLastTouch(rest, h) && AllTouched(rest, h) && k !in rest
    ensures ByLastTouch([k] + rest, h + [k])
  {
    var rec := [k] + rest;
    forall i, j | 0 <= i < j < |rec| ensures LastTouch(h + [k], rec[i]) > LastTouch(h + [k], rec[j]) {
      assert rec[j] == rest[j - 1];
      LastTouchExtend(h, k, rec[i]);
      LastTouchExtend(h, k, rec[j]);
      if i > 0 {
        assert rec[i] == rest[i - 1];
      }
    }
  }

  lemma FrontOutsideOlder(rest: seq<string>, h: seq<string>, k: string)
    requires OutsideOlder(rest, h, {k}) && AllTouched(rest, h) && k !in rest
    ensures OutsideOlder([k] + rest, h + [k], {})
  {
    var rec := [k] + rest;
    forall x, i | x in h + [k] && x !in rec && 0 <= i < |rec|
      ensures LastTouch(h + [k], x) < LastTouch(h + [k], rec[i])
    {
      assert x != k && x in h;
      LastTouchExtend(h, k, x);
      LastTouchExtend(h, k, rec[i]);
      if i > 0 {
        assert rec[i] == rest[i - 1];
      }
    }
  }

  /** Taking one key out of an LRU-ordered list and touching it keeps the LRU order. */
  lemma TouchMoved(rec: seq<string>, h: seq<string>, i: int)
    requires LruOrdered(rec, h) && Distinct(rec) && 0 <= i < |rec|
    ensures LruOrdered([rec[i]] + rec[..i] + rec[i + 1..], h + [rec[i]])
  {
    var rest := rec[..i] + rec[i + 1..];
    ConsAppend(rec[i], rec[..i], rec[i + 1..]);
    RemovedTouched(rec, h, i, rest);
    RemovedOrdered(rec, h, i, rest);
    RemovedOutsideOlder(rec, h, i, rest);
    TouchFront(rest, h, rec[i]);
  }

  lemma ConsAppend(x: string, a: seq<string>, b: seq<string>)
    ensures [x] + a + b == [x] + (a + b)
  {
  }

  /** Position `p` of a list with position `i` taken out. */
  lemma RemovedAt(rec: seq<string>, i: int, rest: seq<string>, p: int)
    requires 0 <= i < |rec| && rest == rec[..i] + rec[i + 1..] && 0 <= p < |rest|
    ensures rest[p] == rec[if p < i then p else p + 1]
  {
  }

  lemma RemovedTouched(rec: seq<string>, h: seq<string>, i: int, rest: seq<string>)
    requires AllTouched(rec, h) && 0 <= i < |rec| && rest == rec[..i] + rec[i + 1..]
    ensures AllTouched(rest, h)
  {
    forall p | 0 <= p < |rest| ensures rest[p] in h {
      RemovedAt(rec, i, rest, p);
    }
  }

  lemma RemovedOrdered(rec: seq<string>, h: seq<string>, i: int, rest: seq<string>)
    requires ByLastTouch(rec, h) && 0 <= i < |rec| && rest == rec[..i] + rec[i + 1..]
    ensures ByLastTouch(rest, h)
  {
    forall p, q | 0 <= p < q < |rest| ensures LastTouch(h, rest[p]) > LastTouch(h, rest[q]) {
      RemovedAt(rec, i, rest, p);
      RemovedAt(rec, i, rest, q);
    }
  }

  lemma RemovedOutsideOlder(rec: seq<string>, h: seq<string>, i: int, rest: seq<string>)
    requires LruOrdered(rec, h) && Distinct(rec) && 0 <= i < |rec| && rest == rec[..i] + rec[i + 1..]
    ensures OutsideOlder(rest, h, {rec[i]}) && rec[i] !in rest
  {
    var k := rec[i];
    forall x, p | x in h && x !in rest && x != k && 0 <= p < |rest|
      ensures LastTouch(h, x) < LastTouch(h, rest[p])
    {
      RemovedAt(rec, i, rest, p);
      assert x !in rec;
    }
    assert k !in rest;
  }

  /** A key that was touched after the back of the list leaves the order intact on eviction. */
  lemma DropBack(rec: seq<string>, h: seq<string>)
    requires LruOrdered(rec, h) && Distinct(rec) && |rec| > 0
    ensures LruOrdered(rec[..|rec| - 1], h)
  {
    var n := |rec| - 1;
    var kept := rec[..n];
    forall x, i | x in h && x !in kept && 0 <= i < |kept|
      ensures LastTouch(h, x) < LastTouch(h, kept[i])
    {
      if x == rec[n] {
        assert kept[i] == rec[i];
      } else {
        assert x !in rec;
      }
    }
  }

  /** Setting a new key keeps the recency list LRU-ordered, eviction included. */
  lemma SetNewIsLru(c: Cache, h: seq<string>, k: string, v: Order)
    requires Valid(c) && LruOrdered(c.recency, h) && k !in c.entries
    ensures LruOrdered(Set(c, k, v).recency, h + [k])
  {
    TouchFront(c.recency, h, k);
    DistinctCons(k, c.recency);
    if |c.recency| == c.capacity {
      DropBack([k] + c.recency, h + [k]);
      assert ([k] + c.recency)[..|c.recency|] == [k] + c.recency[..|c.recency| - 1];
    }
  }

  /** One operation keeps the recency list LRU-ordered with respect to the history. */
  lemma StepIsLru(c: Cache, h: seq<string>, op: Op)
    requires Valid(c) && LruOrdered(c.recency, h)
    ensures LruOrdered(Step(c, op).recency, h + Touched(c, op))
  {
    var k := op.key;
    if op.GetOp? && k !in c.entries {
      assert h + Touched(c, op) == h;
    } else if k in c.entries {
      CachedIsLru(c, h, op);
    } else {
      SetNewIsLru(c, h, k, op.value);
    }
  }

  /** A `Get` or `Set` of a cached key moves it to the front, keeping the LRU order. */
  lemma CachedIsLru(c: Cache, h: seq<string>, op: Op)
    requires Valid(c) && LruOrdered(c.recency, h) && op.key in c.entries
    ensures LruOrdered(Step(c, op).recency, h + Touched(c, op))
  {
    var k := op.key;
    var i := IndexOf(c.recency, k);
    StepCachedMoves(c, op);
    assert Touched(c, op) == [k];
    TouchMoved(c.recency, h, i);
  }

  /** A `Get` or `Set` of a cached key takes it out of the list and puts it in front. */
  lemma StepCachedMoves(c: Cache, op: Op)
    requires Valid(c) && op.key in c.entries
    ensures var i := IndexOf(c.recency, op.key);
            Step(c, op).recency == [op.key] + c.recency[..i] + c.recency[i + 1..]
  {
    match op
    case GetOp(k) =>
    case SetOp(k, v) =>
      assert Set(c, k, v) == Overwrite(c, k, v);
  }

  /**
   * After any run, the recency list is in LRU order with respect to the keys
   * the run touched: the cache behaves as least-recently-used.
   */
  lemma {:induction false} RunIsLru(c: Cache, h: seq<string>, ops: seq<Op>)
    requires Valid(c) && LruOrdered(c.recency, h)
    ensures LruOrdered(Run(c, ops).recency, h + History(c, ops))
    decreases |ops|
  {
    if |ops| > 0 {
      var next := Step(c, ops[0]);
      var t := Touched(c, ops[0]);
      var rest := History(next, ops[1..]);
      assert History(c, ops) == t + rest;
      assert Run(c, ops) == Run(next, ops[1..]);
      HistoryAppend(h, t, rest);
      StepIsLru(c, h, ops[0]);
      RunIsLru(next, h + t, ops[1..]);
    } else {
      assert h + History(c, ops) == h;
    }
  }

  lemma HistoryAppend(h: seq<string>, t: seq<string>, rest: seq<string>)
    ensures h + t + rest == h + (t + rest)
  {
  }

  /** A fresh cache of any capacity is LRU-ordered after any run. */
  lemma FreshCacheIsLru(capacity: int, ops: seq<Op>)
    ensures LruOrdered(Run(NewLru(capacity), ops).recency, History(NewLru(capacity), ops))
  {
    RunIsLru(NewLru(capacity), [], ops);
    assert [] + History(NewLru(capacity), ops) == History(NewLru(capacity), ops);
  }

  /** Running one more operation after a run is stepping the cache the run left. */
  lemma {:induction false} RunAppend(c: Cache, ops: seq<Op>, op: Op)
    requires Valid(c)
    ensures Run(c, ops + [op]) == Step(Run(c, ops), op)
    decreases |ops|
  {
    if |ops| == 0 {
      assert ops + [op] == [op];
      assert [op][1..] == [];
    } else {
      assert (ops + [op])[0] == ops[0];
      assert (ops + [op])[1..] == ops[1..] + [op];
      RunAppend(Step(c, ops[0]), ops[1..], op);
    }
  }

  /**
   * Setting a new key in a full LRU-ordered cache evicts exactly one key: the
   * cached key last touched before every other cached key. All other entries
   * stay, with their values.
   */
  lemma SetEvictsLeastRecent(c: Cache, h: seq<string>, k: string, v: Order)
    requires Valid(c) && LruOrdered(c.recency, h)
    requires k !in c.entries && Len(c) == c.capacity
    ensures exists e :: && e in c.entries && e !in Set(c, k, v).entries
                        && forall y :: y in c.entries && y != e ==>
                             && y in Set(c, k, v).entries && Set(c, k, v).entries[y] == c.entries[y]
                             && LastTouch(h, y) > LastTouch(h, e)
  {
    SizeAgrees(c);
    SetFullEvicts(c, k, v);
    EvictsBack(c, h, k, v, Set(c, k, v).entries);
  }

  /** Dropping the back of a list ordered by last touch drops the key touched before every other. */
  lemma EvictsBack(c: Cache, h: seq<string>, k: string, v: Order, entries: map<string, Order>)
    requires Valid(c) && ByLastTouch(c.recency, h) && |c.recency| > 0 && k !in c.entries
    requires entries == c.entries[k := v] - {c.recency[|c.recency| - 1]}
    ensures exists e :: && e in c.entries && e !in entries
                        && forall y :: y in c.entries && y != e ==>
                             && y in entries && entries[y] == c.entries[y]
                             && LastTouch(h, y) > LastTouch(h, e)
  {
    var e := c.recency[|c.recency| - 1];
    forall y | y in c.entries && y != e
      ensures y in entries && entries[y] == c.entries[y] && LastTouch(h, y) > LastTouch(h, e)
    {
      OlderThanBack(c.recency, h, y);
    }
    assert e in c.entries && e !in entries;
  }

  /** A new key in a full cache takes the place of the back of the list. */
  lemma SetFullEvicts(c: Cache, k: string, v: Order)
    requires Valid(c) && k !in c.entries && |c.recency| == c.capacity
    ensures Set(c, k, v).entries == c.entries[k := v] - {c.recency[|c.recency| - 1]}
  {
    SetOrder(c, k, v);
  }

  /** In a list ordered by last touch, every other key was touched after the back one. */
  lemma OlderThanBack(rec: seq<string>, h: seq<string>, y: string)
    requires ByLastTouch(rec, h) && y in rec && y != rec[|rec| - 1]
    ensures LastTouch(h, y) > LastTouch(h, rec[|rec| - 1])
  {
    var j := IndexOf(rec, y);
    assert j < |rec| - 1;
  }

  /** A `Get` bumps exactly one of the two counters and a `Set` neither (short of wrap-around). */
  lemma StepCountsLookup(c: Cache, op: Op)
    requires Valid(c) && Counted(c) + (if op.GetOp? then 1 else 0) < U64Modulus
    ensures Counted(Step(c, op)) == Counted(c) + (if op.GetOp? then 1 else 0)
  {
  }

  /**
   * Short of 2^64 lookups, the two `Stats` counters together count exactly
   * the `Get` calls made.
   */
  lemma {:induction false} RunCountsLookups(c: Cache, ops: seq<Op>)
    requires Valid(c) && Counted(c) + Lookups(ops) < U64Modulus
    ensures var r := Stats(Run(c, ops));
            r.0 as int + r.1 as int == Counted(c) + Lookups(ops)
    decreases |ops|
  {
    if |ops| > 0 {
      StepCountsLookup(c, ops[0]);
      RunCountsLookups(Step(c, ops[0]), ops[1..]);
    }
  }

  /** Lookups counted so far, hits and misses together. */
  function Counted(c: Cache): int
  {
    c.hits as int + c.misses as int
  }

  /**
   * Capacity 2: set a, set b, get a (a hit), set c evicts b; the cache then
   * holds a and c, with one hit and no miss.
   */
  lemma EvictionScenario(va: Order, vb: Order, vc: Order)
    ensures var g := Get(Set(Set(NewLru(2), "a", va), "b", vb), "a");
            var c := Set(g.cache, "c", vc);
            && g.found && g.value == va
            && c.entries == map["a" := va, "c" := vc]
            && Stats(c) == (1, 0)
  {
    ScenarioSets(va, vb);
    ScenarioHit(va, vb);
    ScenarioEvict(va, vb, vc);
  }

  lemma ScenarioSets(va: Order, vb: Order)
    ensures Set(Set(NewLru(2), "a", va), "b", vb) == Cache(2, ["b", "a"], map["a" := va, "b" := vb], 0, 0)
  {
    var c1 := Set(NewLru(2), "a", va);
    assert c1 == Cache(2, ["a"], map["a" := va], 0, 0);
  }

  lemma ScenarioHit(va: Order, vb: Order)
    ensures var m := map["a" := va, "b" := vb];
            Get(Cache(2, ["b", "a"], m, 0, 0), "a") == Lookup(Cache(2, ["a", "b"], m, 1, 0), va, true)
  {
    assert IndexOf(["b", "a"], "a") == 1;
  }

  lemma ScenarioEvict(va: Order, vb: Order, vc: Order)
    ensures Set(Cache(2, ["a", "b"], map["a" := va, "b" := vb], 1, 0), "c", vc)
            == Cache(2, ["c", "a"], map["a" := va, "c" := vc], 1, 0)
  {
    assert map["a" := va, "b" := vb, "c" := vc] - {"b"} == map["a" := va, "c" := vc];
  }
}

=== FILE: models.dfy ===
/**
 * The order aggregate of wb-orders (package internal/models): an order header,
 * exactly one delivery, exactly one payment and an ordered list of items.
 * Numeric columns are unbounded integers; timestamps are integers where 0 is
 * Go's zero `time.Time`.
 */
module Models {

  datatype Delivery = Delivery(
    name: string,
    phone: string,
    zip: string,
    city: string,
    address: string,
    region: string,
    email: string)

  datatype Payment = Payment(
    transaction: string,
    requestId: string,
    currency: string,
    provider: string,
    amount: int,
    paymentDt: int,
    bank: string,
    deliveryCost: int,
    goodsTotal: int,
    customFee: int)

  datatype Item = Item(
    chrtId: int,
    trackNumber: string,
    price: int,
    rid: string,
    name: string,
    sale: int,
    size: string,
    totalPrice: int,
    nmId: int,
    brand: string,
    status: int)

  datatype Order = Order(
    orderUid: string,
    trackNumber: string,
    entry: string,
    locale: string,
    internalSignature: string,
    customerId: string,
    deliveryService: string,
    shardKey: string,
    smId: int,
    dateCreated: int,
    oofShard: string,
    delivery: Delivery,
    payment: Payment,
    items: seq<Item>)

  /** Go's zero value of a timestamp (`time.Time{}`), for which `IsZero` holds. */
  const ZeroTime: int := 0

  const ZeroDelivery: Delivery := Delivery("", "", "", "", "", "", "")

  const ZeroPayment: Payment := Payment("", "", "", "", 0, 0, "", 0, 0, 0)

  /** Go's zero `models.Order{}`: every field empty, no items. */
  const ZeroOrder: Order :=
    Order("", "", "", "", "", "", "", "", 0, ZeroTime, "", ZeroDelivery, ZeroPayment, [])
}

=== FILE: storage.dfy ===
/**
 * The order repository (wb-orders/internal/storage/repo.go) over an abstract
 * relational state.
 *
 * The four tables are keyed by `order_uid`: `orders`, `delivery` and `payment`
 * hold at most one row per uid (their upserts use `ON CONFLICT (order_uid)`),
 * while `items` is a list of rows with no key of its own, kept in insertion
 * order. Database errors are not computed: a fault oracle names the statement
 * at which the database reports one.
 */
module Storage {
  import opened Wrappers
  import opened Models
  import opened ItemOrder

  /** A row of the `orders` table without its key. */
  datatype Header = Header(
    trackNumber: string,
    entry: string,
    locale: string,
    internalSignature: string,
    customerId: string,
    deliveryService: string,
    shardKey: string,
    smId: int,
    dateCreated: int,
    oofShard: string)

  /** A row of the `items` table. */
  datatype ItemRow = ItemRow(orderUid: string, item: Item)

  datatype Store = Store(
    orders: map<string, Header>,
    delivery: map<string, Delivery>,
    payment: map<string, Payment>,
    items: seq<ItemRow>)

  const EmptyStore: Store := Store(map[], map[], map[], [])

  /** The header columns of an order. */
  function HeaderOf(o: Order): Header
  {
    Header(o.trackNumber, o.entry, o.locale, o.internalSignature, o.customerId,
           o.deliveryService, o.shardKey, o.smId, o.dateCreated, o.oofShard)
  }

  /**
   * What every committed state satisfies: an order header, its delivery and
   * its payment exist together, and no item row is orphaned.
   */
  ghost predicate Consistent(s: Store)
  {
    && s.orders.Keys == s.delivery.Keys
    && s.orders.Keys == s.payment.Keys
    && forall i :: 0 <= i < |s.items| ==> s.items[i].orderUid in s.orders
  }

  // ---------------------------------------------------------------------------
  // ValidateOrder

  datatype ValidationError = EmptyOrderUid | EmptyTrackNumber | EmptyDateCreated

  /**
   * `ValidateOrder`: `None` (Go's nil error) exactly when the uid and the
   * track number are non-empty and the creation time is not the zero time;
   * otherwise the first failing check, in the order uid, track number, date.
   */
  function ValidateOrder(o: Order): (r: Option<ValidationError>)
    ensures r.None? <==> o.orderUid != "" && o.trackNumber != "" && o.dateCreated != ZeroTime
    ensures r == Some(EmptyOrderUid) <==> o.orderUid == ""
    ensures r == Some(EmptyTrackNumber) <==> o.orderUid != "" && o.trackNumber == ""
    ensures r == Some(EmptyDateCreated) <==>
              o.orderUid != "" && o.trackNumber != "" && o.dateCreated == ZeroTime
  {
    if o.orderUid == "" then Some(EmptyOrderUid)
    else if o.trackNumber == "" then Some(EmptyTrackNumber)
    else if o.dateCreated == ZeroTime then Some(EmptyDateCreated)
    else None
  }

  // ---------------------------------------------------------------------------
  // The items relation

  /** The items stored for `uid`, in row order. */
  function ItemsOf(rows: seq<ItemRow>, uid: string): (r: seq<Item>)
    ensures |r| <= |rows|
  {
    if |rows| == 0 then []
    else (if rows[0].orderUid == uid then [rows[0].item] else []) + ItemsOf(rows[1..], uid)
  }

  /** `DELETE FROM items WHERE order_uid = uid`. */
  function DeleteItems(rows: seq<ItemRow>, uid: string): (r: seq<ItemRow>)
    ensures forall i :: 0 <= i < |r| ==> r[i].orderUid != uid
    ensures forall i :: 0 <= i < |r| ==> r[i] in rows
  {
    if |rows| == 0 then []
    else (if rows[0].orderUid == uid then [] else [rows[0]]) + DeleteItems(rows[1..], uid)
  }

  /** The rows the item inserts add for `uid`, one per item, in order. */
  function RowsFor(uid: string, items: seq<Item>): (r: seq<ItemRow>)
    ensures |r| == |items|
  {
    if |items| == 0 then [] else [ItemRow(uid, items[0])] + RowsFor(uid, items[1..])
  }

  lemma {:induction false} RowsForKey(uid: string, items: seq<Item>, i: int)
    requires 0 <= i < |items|
    ensures RowsFor(uid, items)[i].orderUid == uid
  {
    if i > 0 {
      RowsForKey(uid, items[1..], i - 1);
    }
  }

  lemma {:induction false} ItemsOfAppend(a: seq<ItemRow>, b: seq<ItemRow>, uid: string)
    ensures ItemsOf(a + b, uid) == ItemsOf(a, uid) + ItemsOf(b, uid)
  {
    if |a| > 0 {
      ItemsOfAppend(a[1..], b, uid);
      assert (a + b)[1..] == a[1..] + b;
    } else {
      assert a + b == b;
    }
  }

  /** After the delete, `uid` has no items; every other uid keeps its items. */
  lemma {:induction false} ItemsOfDelete(rows: seq<ItemRow>, uid: string, u: string)
    ensures ItemsOf(DeleteItems(rows, uid), u) == if u == uid then [] else ItemsOf(rows, u)
  {
    if |rows| > 0 {
      ItemsOfDelete(rows[1..], uid, u);
      var head := if rows[0].orderUid == uid then [] else [rows[0]];
      ItemsOfAppend(head, DeleteItems(rows[1..], uid), u);
    }
  }

  /** The inserted rows are exactly the items of `uid`, and items of no other uid. */
  lemma {:induction false} ItemsOfRowsFor(uid: string, items: seq<Item>, u: string)
    ensures ItemsOf(RowsFor(uid, items), u) == if u == uid then items else []
  {
    if |items| > 0 {
      var head := [ItemRow(uid, items[0])];
      var tail := RowsFor(uid, items[1..]);
      assert RowsFor(uid, items) == head + tail;
      ItemsOfAppend(head, tail, u);
      assert ItemsOf(head, u) == (if u == uid then [items[0]] else []) by {
        assert head[1..] == [];
      }
      ItemsOfRowsFor(uid, items[1..], u);
      if u == uid {
        assert items == [items[0]] + items[1..];
      }
    }
  }

  // ---------------------------------------------------------------------------
  // UpsertOrder

  /** The statements of the `UpsertOrder` transaction, in execution order. */
  datatype TxStep =
    | BeginTx
    | UpsertOrders
    | UpsertDelivery
    | UpsertPayment
    | DeleteOldItems
    | InsertItem(index: nat)
    | CommitTx

  /** `UpsertOrder`'s error names the statement that failed; an item insert names the item's catalog id. */
  datatype UpsertError =
    | BeginFailed
    | OrdersFailed
    | DeliveryFailed
    | PaymentFailed
    | DeleteItemsFailed
    | InsertItemFailed(chrtId: int)
    | CommitFailed

  /** The state after the call and Go's returned error (`None` for nil). */
  datatype TxOutcome = TxOutcome(store: Store, err: Option<UpsertError>)

  /** Whether the transaction for `o` executes `step` at all (only existing items are inserted). */
  predicate Executed(o: Order, step: TxStep)
  {
    step.InsertItem? ==> step.index < |o.items|
  }

  /** The store holds exactly `o` under its uid: header, delivery, payment and the items in order. */
  ghost predicate Holds(s: Store, o: Order)
  {
    var uid := o.orderUid;
    && uid in s.orders && s.orders[uid] == HeaderOf(o)
    && uid in s.delivery && s.delivery[uid] == o.delivery
    && uid in s.payment && s.payment[uid] == o.payment
    && ItemsOf(s.items, uid) == o.items
  }

  /** `s` and `t` have the same rows for `uid` in every table. */
  ghost predicate SameRows(s: Store, t: Store, uid: string)
  {
    && (uid in s.orders <==> uid in t.orders)
    && (uid in s.orders ==> s.orders[uid] == t.orders[uid])
    && (uid in s.delivery <==> uid in t.delivery)
    && (uid in s.delivery ==> s.delivery[uid] == t.delivery[uid])
    && (uid in s.payment <==> uid in t.payment)
    && (uid in s.payment ==> s.payment[uid] == t.payment[uid])
    && ItemsOf(s.items, uid) == ItemsOf(t.items, uid)
  }

  /**
   * `UpsertOrder`: one transaction that overwrites the header, delivery and
   * payment rows of `o.orderUid`, deletes that uid's items and inserts
   * `o.items`. If the statement `fault` names runs and fails, the transaction
   * is rolled back (or never committed) and the prior state is kept.
   */
  function UpsertOrder(s: Store, o: Order, fault: Option<TxStep>): (r: TxOutcome)
    ensures r.err.None? <==> fault.None? || !Executed(o, fault.value)
    ensures r.err.Some? ==> r.store == s
    ensures r.err.Some? && fault.value.InsertItem? ==>
              r.err == Some(InsertItemFailed(o.items[fault.value.index].chrtId))
    ensures r.err.None? ==> Holds(r.store, o)
    ensures r.err.None? ==> forall u :: u != o.orderUid ==> SameRows(s, r.store, u)
    ensures r.err.None? && Consistent(s) ==> Consistent(r.store)
  {
    var uid := o.orderUid;
    if fault == Some(BeginTx) then TxOutcome(s, Some(BeginFailed))
    else if fault == Some(UpsertOrders) then TxOutcome(s, Some(OrdersFailed))
    else if fault == Some(UpsertDelivery) then TxOutcome(s, Some(DeliveryFailed))
    else if fault == Some(UpsertPayment) then TxOutcome(s, Some(PaymentFailed))
    else if fault == Some(DeleteOldItems) then TxOutcome(s, Some(DeleteItemsFailed))
    else if fault.Some? && fault.value.InsertItem? && fault.value.index < |o.items| then
      TxOutcome(s, Some(InsertItemFailed(o.items[fault.value.index].chrtId)))
    else if fault == Some(CommitTx) then TxOutcome(s, Some(CommitFailed))
    else
      UpsertCommitted(s, o, Committed(s, o));
      TxOutcome(Committed(s, o), None)
  }

  /**
   * The state the transaction commits: header, delivery and payment of the
   * uid overwritten, its old item rows deleted and one row per item appended.
   */
  function Committed(s: Store, o: Order): Store
  {
    Store(s.orders[o.orderUid := HeaderOf(o)], s.delivery[o.orderUid := o.delivery],
          s.payment[o.orderUid := o.payment],
          DeleteItems(s.items, o.orderUid) + RowsFor(o.orderUid, o.items))
  }

  /** What the committed transaction leaves behind. */
  lemma UpsertCommitted(s: Store, o: Order, t: Store)
    requires t == Committed(s, o)
    ensures Holds(t, o)
    ensures forall u :: u != o.orderUid ==> SameRows(s, t, u)
    ensures Consistent(s) ==> Consistent(t)
  {
    var uid := o.orderUid;
    forall u ensures ItemsOf(t.items, u) == if u == uid then o.items else ItemsOf(s.items, u) {
      CommittedItems(s.items, o, u);
    }
    CommittedConsistent(s, o, t);
  }

  lemma CommittedItems(rows: seq<ItemRow>, o: Order, u: string)
    ensures ItemsOf(DeleteItems(rows, o.orderUid) + RowsFor(o.orderUid, o.items), u)
            == if u == o.orderUid then o.items else ItemsOf(rows, u)
  {
    var kept := DeleteItems(rows, o.orderUid);
    ItemsOfAppend(kept, RowsFor(o.orderUid, o.items), u);
    ItemsOfDelete(rows, o.orderUid, u);
    ItemsOfRowsFor(o.orderUid, o.items, u);
  }

  lemma CommittedConsistent(s: Store, o: Order, t: Store)
    requires t == Committed(s, o)
    ensures Consistent(s) ==> Consistent(t)
  {
    var uid := o.orderUid;
    var kept := DeleteItems(s.items, uid);
    if Consistent(s) {
      forall i | 0 <= i < |t.items| ensures t.items[i].orderUid in t.orders {
        if i >= |kept| {
          RowsForKey(uid, o.items, i - |kept|);
          assert t.items[i] == RowsFor(uid, o.items)[i - |kept|];
        } else {
          assert t.items[i] == kept[i];
        }
      }
    }
  }

  /** The state a fault-free upsert commits. */
  lemma UpsertNoFault(s: Store, o: Order)
    ensures UpsertOrder(s, o, None) == TxOutcome(Committed(s, o), None)
  {
  }

  /** Upserting the same order twice leaves the same state as upserting it once. */
  lemma UpsertIdempotent(s: Store, o: Order)
    ensures var once := UpsertOrder(s, o, None);
            UpsertOrder(once.store, o, None) == once
  {
    UpsertNoFault(s, o);
    var once := UpsertOrder(s, o, None).store;
    UpsertNoFault(once, o);
    CommitTwice(s, o, once);
  }

  /** Committing the same order on top of its own commit changes nothing. */
  lemma CommitTwice(s: Store, o: Order, once: Store)
    requires once == Committed(s, o)
    ensures Committed(once, o) == once
  {
    ReplaceItemsTwice(s.items, o.orderUid, o.items);
  }

  /** Replacing a uid's item rows by the same items a second time changes nothing. */
  lemma ReplaceItemsTwice(rows: seq<ItemRow>, uid: string, items: seq<Item>)
    ensures var once := DeleteItems(rows, uid) + RowsFor(uid, items);
            DeleteItems(once, uid) + RowsFor(uid, items) == once
  {
    var kept, added := DeleteItems(rows, uid), RowsFor(uid, items);
    calc {
      DeleteItems(kept + added, uid);
      { DeleteAppend(kept, added, uid); }
      DeleteItems(kept, uid) + DeleteItems(added, uid);
      { DeleteDeleted(rows, uid); DeleteFresh(uid, items); }
      kept + [];
      kept;
    }
  }

  lemma {:induction false} DeleteAppend(a: seq<ItemRow>, b: seq<ItemRow>, uid: string)
    ensures DeleteItems(a + b, uid) == DeleteItems(a, uid) + DeleteItems(b, uid)
  {
    if |a| > 0 {
      var head := if a[0].orderUid == uid then [] else [a[0]];
      assert (a + b)[0] == a[0];
      assert (a + b)[1..] == a[1..] + b;
      assert DeleteItems(a + b, uid) == head + DeleteItems(a[1..] + b, uid);
      DeleteAppend(a[1..], b, uid);
      assert DeleteItems(a, uid) == head + DeleteItems(a[1..], uid);
    } else {
      assert a + b == b;
    }
  }

  lemma {:induction false} DeleteDeleted(rows: seq<ItemRow>, uid: string)
    ensures DeleteItems(DeleteItems(rows, uid), uid) == DeleteItems(rows, uid)
  {
    if |rows| > 0 {
      DeleteDeleted(rows[1..], uid);
      var head := if rows[0].orderUid == uid then [] else [rows[0]];
      DeleteAppend(head, DeleteItems(rows[1..], uid), uid);
    }
  }

  lemma {:induction false} DeleteFresh(uid: string, items: seq<Item>)
    ensures DeleteItems(RowsFor(uid, items), uid) == []
  {
    if |items| > 0 {
      DeleteFresh(uid, items[1..]);
      DeleteAppend([ItemRow(uid, items[0])], RowsFor(uid, items[1..]), uid);
    }
  }

  /**
   * A second upsert of the same uid replaces the first completely: the store
   * then holds the second order, with none of the first order's items.
   */
  lemma UpsertReplaces(s: Store, o1: Order, o2: Order)
    requires o1.orderUid == o2.orderUid
    ensures var first := UpsertOrder(s, o1, None).store;
            Holds(UpsertOrder(first, o2, None).store, o2)
  {
  }

  // ---------------------------------------------------------------------------
  // GetOrderByID

  /** The statements of `GetOrderByID` at which the database can report an error. */
  datatype ReadStep = HeadRow | ItemsQuery | ItemScan(index: nat) | ItemsIteration

  /** A missing header row (Go's wrapped `sql.ErrNoRows`) is told apart from every other failure. */
  datatype ReadError = NotFound | QueryFailed(step: ReadStep)

  /**
   * What `GetOrderByID` rebuilds from the stored `o`: the head query selects
   * only `order_uid` from the header, so every other header field keeps its
   * zero value; delivery and payment come back whole and the items sorted by
   * catalog id.
   */
  function ReadBack(o: Order): (r: Order)
    ensures r.orderUid == o.orderUid && r.delivery == o.delivery && r.payment == o.payment
    ensures HeaderOf(r) == HeaderOf(ZeroOrder)
    ensures SortedByChrt(r.items) && multiset(r.items) == multiset(o.items)
  {
    ZeroOrder.(orderUid := o.orderUid, delivery := o.delivery, payment := o.payment,
               items := SortByChrt(o.items))
  }

  /**
   * `GetOrderByID`. The head query left-joins delivery and payment to the
   * header row, so a header without them yields NULL columns, which the scan
   * into Go strings and integers rejects.
   */
  function GetOrderByID(s: Store, id: string, fault: Option<ReadStep>): (r: Result<Order, ReadError>)
    ensures r == Err(NotFound) <==> fault != Some(HeadRow) && id !in s.orders
    ensures r.Ok? ==> && id in s.orders && id in s.delivery && id in s.payment
                      && r.value.orderUid == id
                      && HeaderOf(r.value) == HeaderOf(ZeroOrder)
                      && r.value.delivery == s.delivery[id]
                      && r.value.payment == s.payment[id]
                      && SortedByChrt(r.value.items)
                      && multiset(r.value.items) == multiset(ItemsOf(s.items, id))
    ensures Consistent(s) && id in s.orders && fault.None? ==> r.Ok?
    ensures (&& id in s.orders && id in s.delivery && id in s.payment
             && fault.Some? && fault != Some(HeadRow) && !ItemsStepRuns(ItemsOf(s.items, id), fault.value))
            ==> r.Ok?
    ensures fault == Some(HeadRow) ==> r == Err(QueryFailed(HeadRow))
    ensures fault != Some(HeadRow) && id in s.orders && (id !in s.delivery || id !in s.payment) ==>
              r == Err(QueryFailed(HeadRow))
    ensures id in s.orders && id in s.delivery && id in s.payment && fault.Some? &&
            ItemsStepRuns(ItemsOf(s.items, id), fault.value) ==>
              r == Err(QueryFailed(fault.value))
    ensures r.Err? && r != Err(NotFound) ==>
              && r.error.QueryFailed?
              && (fault == Some(r.error.step) || (r.error.step == HeadRow && (id !in s.delivery || id !in s.payment)))
  {
    if fault == Some(HeadRow) then Err(QueryFailed(HeadRow))
    else if id !in s.orders then Err(NotFound)
    else if id !in s.delivery || id !in s.payment then Err(QueryFailed(HeadRow))
    else
      match ReadItems(SortByChrt(ItemsOf(s.items, id)), fault)
      case Ok(items) =>
        Ok(ZeroOrder.(orderUid := id, delivery := s.delivery[id], payment := s.payment[id], items := items))
      case Err(e) => Err(e)
  }

  /** Whether the items phase of a read runs the statement `step` (a scan only runs for an existing row). */
  predicate ItemsStepRuns(items: seq<Item>, step: ReadStep)
  {
    && step != HeadRow
    && (step.ItemScan? ==> step.index < |items|)
  }

  /**
   * The second phase of `GetOrderByID`: the items query, one scan per row
   * and the final check of the iteration. It fails exactly when the faulting
   * statement runs, with that statement's error, and otherwise returns the rows.
   */
  function ReadItems(items: seq<Item>, fault: Option<ReadStep>): (r: Result<seq<Item>, ReadError>)
    requires fault != Some(HeadRow)
    ensures r.Ok? <==> fault.None? || !ItemsStepRuns(items, fault.value)
    ensures r.Ok? ==> r.value == items
    ensures r.Err? ==> r.error == QueryFailed(fault.value)
  {
    if fault == Some(ItemsQuery) then Err(QueryFailed(ItemsQuery))
    else if fault.Some? && fault.value.ItemScan? && fault.value.index < |items| then Err(QueryFailed(fault.value))
    else if fault == Some(ItemsIteration) then Err(QueryFailed(ItemsIteration))
    else Ok(items)
  }

  /** A fault can only turn a read into an error; it never changes what is read. */
  lemma FaultOnlyFails(s: Store, id: string, fault: Option<ReadStep>)
    ensures GetOrderByID(s, id, fault).Ok? ==> GetOrderByID(s, id, fault) == GetOrderByID(s, id, None)
  {
  }

  /**
   * Every order a fault-free `GetOrderByID` can return, by uid: the uids that
   * have a header, a delivery and a payment row.
   */
  function Readable(s: Store): map<string, Order>
  {
    map id | id in s.orders && id in s.delivery && id in s.payment ::
      ZeroOrder.(orderUid := id, delivery := s.delivery[id], payment := s.payment[id],
                 items := SortByChrt(ItemsOf(s.items, id)))
  }

  /**
   * A successful read, under any fault, returns the readable order of that
   * uid, and a uid is readable exactly when its fault-free read succeeds.
   */
  lemma ReadableReads(s: Store, id: string, fault: Option<ReadStep>)
    ensures GetOrderByID(s, id, fault).Ok? ==>
              id in Readable(s) && Readable(s)[id] == GetOrderByID(s, id, fault).value
    ensures id in Readable(s) <==> GetOrderByID(s, id, None).Ok?
  {
    var r := GetOrderByID(s, id, fault);
    var clean := GetOrderByID(s, id, None);
    FaultOnlyFails(s, id, fault);
    if id in s.orders && id in s.delivery && id in s.payment {
      var o := ZeroOrder.(orderUid := id, delivery := s.delivery[id], payment := s.payment[id],
                          items := SortByChrt(ItemsOf(s.items, id)));
      assert clean == Ok(o);
      assert Readable(s)[id] == o;
    } else {
      assert id !in Readable(s);
      assert clean.Err? && r.Err?;
    }
  }

  /**
   * Upsert then read: the read returns the uid, delivery, payment and the
   * items sorted by catalog id, and every other header field zero.
   */
  lemma UpsertThenRead(s: Store, o: Order)
    ensures GetOrderByID(UpsertOrder(s, o, None).store, o.orderUid, None) == Ok(ReadBack(o))
  {
  }

  /**
   * The round trip is not the identity: a valid order comes back with an empty
   * track number and a zero creation time, so it would fail `ValidateOrder`.
   */
  lemma ReadBackDropsHeader(o: Order)
    requires ValidateOrder(o).None?
    ensures ReadBack(o) != o
    ensures ValidateOrder(ReadBack(o)) == Some(EmptyTrackNumber)
  {
  }

  /**
   * Reading back is stable: an order that has been read back once comes back
   * unchanged, its items already in catalog-id order.
   */
  lemma ReadBackIdempotent(o: Order)
    ensures ReadBack(ReadBack(o)) == ReadBack(o)
  {
    SortSortedIsIdentity(ReadBack(o).items);
  }
}

=== FILE: wrappers.dfy ===
/** Failure-carrying results shared by the whole model. */
module Wrappers {

  /** A value that may be absent. */
  datatype Option<+T> = None | Some(value: T)

  /** The value of an operation that either succeeds or fails with an error. */
  datatype Result<+R, +E> = Ok(value: R) | Err(error: E)
}
